=== FILE: README.md ===
# Raspberry Pi car dashboard — a Dafny model of its control and signalling core

The system drives a Raspberry Pi car from a web dashboard. A Flask server takes
movement commands (`/control`), servo angles (`/servo_control`) and joystick
positions (`joystick_move`); the page's script turns button presses, key
presses and joystick drags into those requests. The camera image goes from the
car to the page over WebRTC, and the two peers exchange their offer, answer and
ICE candidates through a Firestore "room" document with an `ice_candidates`
sub-collection.

This project models:

- `Signalling` — the room store (`firebase_signalling.py`) as a pair of maps:
  room documents, and each room's candidate documents in insertion order. Every
  operation takes whether the store is reachable; an unreachable store gives
  the code's failure value (`False`, `None`, `[]`). `cleanup_room` takes the
  point at which a delete fails, because its deletes are not one transaction.
- `Sender` — the camera sender (`RPi/rpi_webrtc_sender.py`) as a state machine
  whose steps emit an ordered list of effects (peer connection, camera, store
  writes, listener registrations, cleanup).
- `Viewer` — the browser client (`static/js/webrtc_client.js`) the same way,
  with its status label map, its three reconnect attempts and its candidate
  filter.
- `Server` and `Dashboard` — the Flask handlers (`app.py`) and the page script
  (`static/js/script.js`): the button press/release machine with auto-stop,
  the joystick label, the end of a drag, and the key bindings.
- `Session` and `Drive` — the pieces put together: sender and viewer effects
  performed on one store, and the page's requests handled by the server.

The record shapes are modelled as each side writes them, and they do not
agree. The camera sender stores its offer's `sdp` field as the whole
`{type, sdp}` object, so the browser reads the offer text as `[object Object]`.
The sender stores a candidate as `{candidate: {candidate, sdpMLineIndex,
sdpMid}, from}`, with no top-level index fields, so the browser's
`RTCIceCandidate` constructor throws for every one of them. The browser stores
a flat `{candidate, sdpMLineIndex, sdpMid, from}`, whose `candidate` is a
string that the sender's `handle_ice_candidate` cannot subscript; even a
nested object reaches the sender's engine only if aiortc's `RTCIceCandidate`
accepts a `candidate` keyword, which the model takes as an input. The answer
record is the one shape both sides agree on: the sender reads the browser's
`{sdp, type, from}` answer correctly. Whether an engine accepts a description
is an input of the model, not something it decides; the browser writes an
answer only after its engine has accepted the offer, and the offer it is given
has the text `[object Object]`. `Session` states each of these facts as a lemma.

Ending a joystick drag sets the page's current command to `stop` without
sending `/control`. So "hold `w`, drag the joystick, release it, release `w`"
leaves the server at `FORWARD` while the page shows `STOP`
(`Drive.JoystickEndLeavesServerMoving`). When every `/control` request
arrives in the order sent and succeeds, no drag ends and buttons carry
movement commands, the server's direction equals the page's current command
in capitals (`Drive.ButtonsKeepServerInSync`).

Files: `common.dfy` (option type, ASCII case mapping, counting), `rtc.dfy`
(connection states, session descriptions), `signalling.dfy`, `sender.dfy`,
`viewer.dfy`, `server.dfy`, `dashboard.dfy`, `session.dfy`, `drive.dfy`.

## Model

| member | source | states |
|---|---|---|
| Signalling.CreateRoom | firebase_signalling.py:38-52 | A reachable store gets a fresh room in `waiting` with no offer and no answer, overwriting any earlier document; the candidate sub-collection and every other room are untouched; an unreachable store is unchanged and the call reports failure |
| Signalling.SendOffer | firebase_signalling.py:54-71 | Succeeds exactly when the store is reachable and the room exists; then the offer is `{sdp, type: offer, from}` and the status `offer_sent`, and the answer is kept; on failure nothing changes |
| Signalling.SendAnswer | firebase_signalling.py:73-90 | Succeeds exactly when the store is reachable and the room exists; then the answer is `{sdp, type: answer, from}` and the status `answer_sent`, and the offer is kept; on failure nothing changes |
| Signalling.AddIceCandidate | firebase_signalling.py:92-105 | Appends exactly one `{candidate, from}` record, with no top-level index fields, after the existing ones; the room document need not exist and is not touched |
| Signalling.AddCandidateDoc | static/js/webrtc_client.js:170-188 | Appends the given candidate record to the room's sub-collection and changes nothing else |
| Signalling.GetOffer | firebase_signalling.py:107-118 | Returns the stored offer exactly when the store is reachable, the room exists and has an offer; `None` otherwise |
| Signalling.GetAnswer | firebase_signalling.py:120-131 | Returns the stored answer exactly when the store is reachable, the room exists and has an answer; `None` otherwise |
| Signalling.GetIceCandidates | firebase_signalling.py:133-149 | Returns the candidate values of the room's records not written by the asking device, in stored order; `[]` when the store is unreachable |
| Signalling.OthersOfMembership | firebase_signalling.py:139-141 | A record is in the `from != device` query result exactly when it is stored and was written by another device |
| Signalling.OthersOfExcludesSelf | firebase_signalling.py:139-141 | No record of the asking device is ever returned |
| Signalling.OthersOfAppend | firebase_signalling.py:139-141 | The query distributes over appended records, so order is kept |
| Signalling.IceDeliveriesAreQueryOfAdded | firebase_signalling.py:185-201 | The candidate listener delivers exactly the values of the added records of other devices, in order; modified and removed records are not delivered |
| Signalling.AnswerNotification | firebase_signalling.py:168-183 | The answer listener fires with the stored answer exactly when the room exists and has one |
| Signalling.CleanupRoom | firebase_signalling.py:203-218 | Succeeds exactly when no delete fails; success removes the room and all its candidates; a failure after k deletes leaves the room document and the candidates from the k-th on |
| Signalling.GetRoomStatus | firebase_signalling.py:220-231 | `None` exactly when the store is unreachable or the room absent; the stored status otherwise, and `unknown` when the document has none |
| Signalling.CreateThenRead | firebase_signalling.py:38-52 | Reading back a created room gives status `waiting`, no offer, no answer, and the same candidates as before |
| Signalling.OfferRoundTrip | firebase_signalling.py:54-71 | Reading back a written offer gives exactly the record written, and the status `offer_sent` |
| Signalling.AnswerRoundTrip | firebase_signalling.py:73-90 | Reading back a written answer, or receiving it from the answer listener, gives exactly the record written, and the status `answer_sent` |
| Signalling.WriteToAbsentRoomFails | firebase_signalling.py:54-90 | Offer and answer writes to a missing room fail and change nothing |
| Signalling.CandidateRelay | firebase_signalling.py:92-149 | A candidate written by one device is returned by the query of any other device, as the last value, and never to its own writer |
| Signalling.CleanupForgetsRoom | firebase_signalling.py:203-231 | After a full cleanup the room reads as absent: no status, offer or answer, and no candidates for anyone |
| Signalling.UnreachableChangesNothing | firebase_signalling.py:38-231 | With an unreachable store every write fails and changes nothing, every read gives its failure value, and a cleanup failing at once keeps every room |
| Sender.Start | RPi/rpi_webrtc_sender.py:73-159 | If the camera fails only the peer connection is opened; otherwise the effects are, in order, open the peer, attach the camera, create the room, write the `{type, sdp}` offer tagged with the sender's id, subscribe to the answer and to the candidates of other devices; a new unset answer event belongs to the new start |
| Sender.Stop | RPi/rpi_webrtc_sender.py:202-216 | Closes the peer exactly when one was set, stops the track exactly when one was set, and ends with exactly one room cleanup, in that order and with no other effect; no field is reset |
| Sender.Reconnect | RPi/rpi_webrtc_sender.py:193-200 | The effects are those of `stop()` followed by those of `start()` on the unchanged sender, so the room cleanup comes before the new session; the sender ends as the new start leaves it |
| Sender.OnStateChange | RPi/rpi_webrtc_sender.py:88-97 | `connected` sets the flag and does nothing else; `failed` clears the flag and reconnects; every other state changes nothing |
| Sender.OnLocalCandidate | RPi/rpi_webrtc_sender.py:99-111 | A local candidate is forwarded once, as the nested `{candidate, sdpMLineIndex, sdpMid}` object tagged with the sender's id; the end-of-candidates signal forwards nothing |
| Sender.OnAnswer | RPi/rpi_webrtc_sender.py:161-174 | Once subscribed, every delivered answer is applied with its type and SDP, and the answer event is set exactly when the engine accepts it; the room, device, peer, track, connected flag and listeners are unchanged |
| Sender.OnRemoteCandidate | RPi/rpi_webrtc_sender.py:176-191 | A delivered candidate is applied exactly when a listener is registered, the value is the nested object and aiortc's constructor accepts its fields; otherwise the exception is caught and nothing is applied |
| Sender.SenderIceFields | RPi/rpi_webrtc_sender.py:183-187 | The fields can be read exactly when the candidate value is an object |
| Sender.FailedIsWellOrdered | RPi/rpi_webrtc_sender.py:193-216 | The stop-then-start of a `failed` event tags every write with the sender's id and writes the offer only after creating the room |
| Sender.RunIsWellOrdered | RPi/rpi_webrtc_sender.py:73-216 | Over any event sequence every written offer and candidate carries the sender's own id, and every offer is written after the room was created |
| Sender.SenderUsesCameraId | RPi/rpi_webrtc_sender.py:64-71 | A sender built for any room writes everything under `rpi_car_camera` |
| Sender.ReconnectCleansBeforeCreating | RPi/rpi_webrtc_sender.py:193-200 | After `failed` the sender is not connected, and the room is cleaned up before it is created again |
| Sender.ReconnectCounts | RPi/rpi_webrtc_sender.py:193-200 | One `failed` event gives exactly one cleanup, and one room creation exactly when the camera opens again |
| Sender.EveryFailureRestarts | RPi/rpi_webrtc_sender.py:193-200 | There is no attempt limit: n failures give n cleanups and as many room creations as restarts whose camera opens |
| Sender.AnswerSetsEventOnlyOnSuccess | RPi/rpi_webrtc_sender.py:161-174 | The answer event is set when the remote description is accepted and stays unset when it is refused |
| Sender.StopTwice | RPi/rpi_webrtc_sender.py:202-216 | Stopping leaves the sender's fields as they were, so a second stop repeats the same effects |
| Sender.SubscriptionsAccumulate | RPi/rpi_webrtc_sender.py:130-147 | Listeners are never removed: each successful restart adds one more registration |
| Viewer.StatusLabel | static/js/webrtc_client.js:221-238 | The label differs from the status exactly for the seven keys of the map (`failed` is `❌ Connection Failed`); any other status name that is not an inherited property of JavaScript objects is shown as it is |
| Viewer.StatusLabelMap | static/js/webrtc_client.js:221-238 | Different known statuses get different labels, and no label is itself a status name |
| Viewer.StatesAreKnown | static/js/webrtc_client.js:62-64 | Every connection state the handler passes on has a label |
| Viewer.SdpAsDomString | static/js/webrtc_client.js:128-131 | A text `sdp` is used as it is; an object `sdp` becomes `[object Object]` |
| Viewer.BrowserIceInit | static/js/webrtc_client.js:203-207 | A candidate is built exactly when the record has an `sdpMLineIndex` or an `sdpMid`, and then its text is the record's string, or `[object Object]` for a nested object |
| Viewer.StartStep | static/js/webrtc_client.js:38-105 | Opens a fresh peer with no remote description and subscribes to the room's offer and to candidates of other devices; attempts and connection flag are kept |
| Viewer.StopStep | static/js/webrtc_client.js:264-281 | Closes the peer exactly when there is one, stops the tracks exactly when there is a stream, and clears peer, stream and connected flag; the attempt count is kept |
| Viewer.HandleConnectionFailure | static/js/webrtc_client.js:240-252 | Below three attempts, count one more and schedule one reconnect; at three, schedule nothing and show `Connection Failed` |
| Viewer.OnStateChange | static/js/webrtc_client.js:62-78 | `connected` sets the flag and resets the attempts; `failed` clears the flag and goes to the failure handler; `disconnected` only clears the flag; `failed` is exactly the failure handler run on the client showing the failed label with the flag cleared, so a scheduled reconnect is counted as pending; with a peer connection the label shown is the new state's label |
| Viewer.Reconnect | static/js/webrtc_client.js:254-262 | Stops, then starts again only when the video element exists: the effects are stop's followed by start's, the connected flag and the stream are cleared, attempts are kept and no reconnect is scheduled |
| Viewer.OnOffer | static/js/webrtc_client.js:107-148 | An offer is handled exactly when the room has one and the peer has no current remote description; it is applied with its type and its `sdp` as a string; an answer tagged with the viewer's id is written when the engine produces one, and only then does the peer have a current remote description; nothing else about the client changes |
| Viewer.OnTimer | static/js/webrtc_client.js:245-247 | A scheduled reconnect that runs consumes one pending timer and performs `reconnect()`, keeping the attempt count and scheduling nothing further; with none pending nothing happens |
| Viewer.OnCandidates | static/js/webrtc_client.js:190-219 | The candidates applied are those built from added records of other devices, in order |
| Viewer.OnLocalCandidate | static/js/webrtc_client.js:81-86 | A local candidate is written once as a flat record tagged with the viewer's id; the end-of-candidates signal writes nothing |
| Viewer.OnTrack | static/js/webrtc_client.js:52-59 | A track with a stream records the stream and shows `Streaming`; one without changes nothing |
| Viewer.PageClientStaysValid | static/js/webrtc_client.js:11-23 | The client the page builds uses `dashboard_viewer` and zero attempts, and every run from it keeps the attempt count within three |
| Viewer.RunKeepsValid | static/js/webrtc_client.js:240-252 | Over any event sequence the attempt count never exceeds three |
| Viewer.HandleCountsSchedules | static/js/webrtc_client.js:240-252 | Outside `connected`, each event raises the attempt count by exactly the number of reconnects it schedules |
| Viewer.ReconnectsAreBounded | static/js/webrtc_client.js:240-252 | Between two `connected` events at most three reconnects are scheduled in total, counted from the current attempts |
| Viewer.ConnectedResets | static/js/webrtc_client.js:66-69 | `connected` resets the attempt count to zero |
| Viewer.StopIsIdempotent | static/js/webrtc_client.js:264-281 | A second stop has no effect |
| Viewer.OfferAppliedAtMostOnce | static/js/webrtc_client.js:114-117 | Once the client has answered an offer, later room snapshots are not handled again |
| Viewer.OfferReappliedUntilAnswered | static/js/webrtc_client.js:114-147 | When the offer is rejected, or accepted but no answer is set, the client is unchanged and the next snapshot of the same room applies the same offer again |
| Viewer.CandidatesFromOthersOnly | static/js/webrtc_client.js:195-207 | Every candidate applied comes from an added record written by another device |
| Server.Control | app.py:69-85 | A movement command sets the direction to its capitals, any other command keeps the state, the speed is never touched, and the reply is `success`, the command as received and the resulting direction |
| Server.DirectionStaysKnown | app.py:69-85 | The direction stays one of the five whatever command arrives |
| Server.ControlIsIdempotent | app.py:69-85 | Repeating a command changes nothing more |
| Server.ControlExamples | app.py:69-85 | `forward` gives `FORWARD`; an unknown or missing command keeps the direction and is echoed |
| Server.Clamp | app.py:114-115 | The result lies in 0..180, equals the angle inside that range, and is the nearer bound outside it |
| Server.ServoControl | app.py:108-126 | The reply is `success` with the servo id as received and the clamped angle, 90 when none is given |
| Server.ServoExamples | app.py:108-126 | 200 becomes 180, -30 becomes 0, 90 stays 90 |
| Server.HandleJoystick | app.py:87-106 | The reply echoes `x` and `y`, 0 when missing, with `received`, and the state is unchanged |
| Dashboard.JoystickLabelFollowsRegion | static/js/script.js:208-230 | The label is the heading of the region of the point, and stays as it was exactly on the border of the 20-square along the dominant axis |
| Dashboard.RegionCases | static/js/script.js:208-230 | The regions axis by axis: stop inside the square, vertical headings when the vertical axis dominates beyond 20, horizontal ones otherwise |
| Dashboard.BoundaryKeepsLabel | static/js/script.js:208-230 | Points exactly at 20 along the dominant axis keep the label |
| Dashboard.JoystickLabel | static/js/script.js:208-230 | The label is one of the five headings or stays as it was; which one is stated by `Dashboard.JoystickLabelFollowsRegion` |
| Dashboard.Press | static/js/script.js:57-73 | Sends the command once, shows it in capitals and remembers it |
| Dashboard.Release | static/js/script.js:75-92 | Releasing a button other than stop while the current command is not stop sends one `stop` and shows `STOP`; otherwise nothing happens |
| Dashboard.ReleaseIsIdempotent | static/js/script.js:75-92 | After releasing a movement button, any further release sends nothing |
| Dashboard.PressReleaseAutoStops | static/js/script.js:57-92 | Press and release of a movement button send the command and then exactly one `stop` |
| Dashboard.StartJoystick | static/js/script.js:121-128 | Starting a drag only marks the joystick active; nothing is sent and the current command and label are kept |
| Dashboard.MoveJoystick | static/js/script.js:130-182 | Only while a drag is active, the position is sent and the label follows it |
| Dashboard.StopJoystick | static/js/script.js:184-206 | Only while a drag is active, the centre position is sent, `STOP` is shown and the current command becomes `stop`; no `/control` request is made |
| Dashboard.StopJoystickSilencesRelease | static/js/script.js:75-92 | After a drag ends, releasing any button or movement key sends nothing, because the current command is already `stop` |
| Dashboard.KeyBindings | static/js/script.js:233-281 | Keydown and keyup bind the same movement keys; space only presses stop; no key releases stop |
| Dashboard.KeyExamples | static/js/script.js:233-281 | `w`, `W` and `ArrowUp` press forward; `ArrowLeft` releases left; space presses stop and releases nothing |
| Dashboard.KeyDown | static/js/script.js:233-258 | A bound key presses its button; other keys do nothing |
| Dashboard.KeyUp | static/js/script.js:260-281 | A bound movement key releases its button; other keys do nothing |
| Session.StartPublishesOffer | RPi/rpi_webrtc_sender.py:113-127 | After a successful start the room is `offer_sent` with exactly the sender's offer and no answer, and the stored candidates are kept |
| Session.StopClearsRoom | RPi/rpi_webrtc_sender.py:202-216 | The store effects of stop remove the room and all its candidates |
| Session.ReconnectStartsClean | RPi/rpi_webrtc_sender.py:193-200 | After `failed`, the room holds only the new offer, no answer and no candidates |
| Session.ViewerReadsSenderOfferAsObject | static/js/webrtc_client.js:124-133 | The browser applies the sender's offer with the SDP text `[object Object]` |
| Session.ViewerCannotApplySenderCandidates | static/js/webrtc_client.js:190-219 | No candidate record in the sender's nested shape is ever applied by the browser |
| Session.SenderCannotApplyViewerCandidates | RPi/rpi_webrtc_sender.py:176-191 | No candidate record in the browser's flat shape is ever applied by the sender, whatever aiortc's constructor does |
| Session.EachSideReadsItsOwnShape | RPi/rpi_webrtc_sender.py:176-191 | The browser builds a candidate from a flat record with an index; the sender reads a nested candidate object and applies it exactly when aiortc's constructor accepts its fields |
| Session.ViewerAnswerReachesSender | static/js/webrtc_client.js:150-168 | The browser's answer written into an existing room is what the sender's listener delivers, and the sender applies it as an `answer` with the browser's SDP |
| Session.DeliveriesIgnoreOwnRecords | firebase_signalling.py:185-201 | For any batch of changes, removing the device's own records leaves its deliveries unchanged, and every delivered value is the candidate of a record added by another device |
| Session.OwnCandidatesNeverReturn | firebase_signalling.py:185-201 | A batch made only of the device's own records delivers nothing to it |
| Drive.ButtonsKeepServerInSync | static/js/script.js:57-92 | With `/control` requests delivered in order and without failure, while no joystick drag ends and buttons carry movement commands, the server's direction equals the page's current command in capitals |
| Drive.JoystickEndLeavesServerMoving | static/js/script.js:184-206 | Holding `w`, dragging and releasing the joystick, then releasing `w` leaves the server at `FORWARD` while the page shows `STOP` |
| Drive.LoadedIsInSync | app.py:13-14 | The page as loaded and the server as started agree on `stop` |

## Left out

- Viewer.OnOffer: a room snapshot is handled once, atomically. In the source every `start()` registers another room listener and none is removed (static/js/webrtc_client.js:94, 107-122). After a restart each listener runs on every snapshot, and each can pass the `currentRemoteDescription` guard before any `setRemoteDescription` completes (lines 114-116, 133). The offer can then be applied once per listener. The model counts the listeners (`subscriptions`) but does not interleave them.
- Sender.OnAnswer: one answer delivery is handled once. In the source every `start()`, including each reconnect, registers another answer listener and another candidate listener, and none is removed (RPi/rpi_webrtc_sender.py:130-146). Each listener runs `handle_answer` for the same change with its own start's `answer_received` event, so only the first call can be accepted and the current start's event may stay unset while the model sets `answered`. `Sender.OnRemoteCandidate` likewise applies a candidate once, where each registered listener applies it again.
- Viewer.OnCandidates: one batch of changes is applied once. In the source each `start()` adds another candidate listener (static/js/webrtc_client.js:97, 190-215), so after a restart every listener applies the same added candidates to the current peer connection. The model counts the listeners (`subscriptions`) but applies each batch once.
- Drive.ButtonsKeepServerInSync: holds only when every `/control` request reaches the server in the order it was sent and succeeds. `sendCommand` starts a `fetch` it never waits for and only logs a failure (static/js/script.js:94-109), so a quick press and release can reach the server as `stop` then `forward`, and a failed request leaves the page ahead of the server.
- Sender.OnRemoteCandidate: aiortc's `RTCIceCandidate` is not part of this model; whether it accepts `candidate=`, `sdpMLineIndex=` and `sdpMid=` (RPi/rpi_webrtc_sender.py:183-187) is the event input `constructs`. aiortc declares `RTCIceCandidate` as a dataclass with no `candidate` field, so with such a release the call raises `TypeError`, which line 190 catches, and no remote candidate ever reaches the sender's engine: that is the case `constructs == false`.
- Signalling.CleanupRoom: a partial failure keeps a suffix of the candidates in insertion order. Firestore's `stream()` returns documents in document-ID order and `add()` picks random IDs (firebase_signalling.py:203-231), so in the source the surviving candidates are some subsequence of them, not necessarily a suffix.
- Viewer.StatusLabel: a status that names a property inherited by every JavaScript object (`constructor`, `toString`, ...) gets that property instead of the status text. No connection state has such a name (`Viewer.StatesAreKnown`).
- Firestore itself: timestamps, server ordering of the `!=` query, and listener threads. Candidates are kept in insertion order and listeners deliver each change once.
- `listen_for_offer` (firebase_signalling.py:151-166): nothing in the modelled code calls it.
- The WebRTC engines (aiortc and the browser): offers, answers, connection states, candidates and whether a remote description is accepted arrive as event data.
- Camera capture, frame encoding, `VideoCamera`, `gen` and the video and page routes of the Flask app, and `add_webrtc_routes`: they carry no state of the core.
- Sender.Start: the end of `start()` is not modelled. After `start()` has registered its listeners it waits for the answer event and then loops while `connected` is set (RPi/rpi_webrtc_sender.py:149-155). So it returns as soon as an answer is accepted while the peer is not yet connected, and within a second of any `failed`. It also re-raises when the camera fails (lines 157-159). In each case `main` then calls `stop()`, which cleans up the room, and returns (lines 228-236).
- Sender.EveryFailureRestarts: this and `Sender.SubscriptionsAccumulate` hold for the connection-state handler and `reconnect()` as written, not for the program `main` launches. In that program the first `failed` lets `start()` return, `main` stops the sender, and `asyncio.run` cancels the pending reconnect during its 5-second `RECONNECT_DELAY` sleep (webrtc_config.py:50). The sleep itself is not modelled: a reconnect happens at once.
- The browser's 5-second reconnect timer is an event; `initWebRTC` and the page-load timers are left out.
- `moveJoystick`'s pixel-to-percent scaling and rounding: the joystick position arrives as integers in the model.
- The DOM: CSS classes, the active button, the control-mode text and the joystick's visual position.
- Configuration files and Firebase credentials.
- A request body that is not JSON or whose fields are not strings or integers: `request.json` is modelled as a record of optional fields.
- Exceptions thrown by `pc.close()` or by a track's `stop()` inside the sender's `stop()`.
- Dashboard.KeyDown: the key is lower-cased by ASCII only; Unicode case mapping of other letters is not modelled.
- Dashboard.Press: the mapping from `forward-btn` etc. to the `forward` etc. command comes from the page template, which is not part of this model.

=== FILE: common.dfy ===
/** Small shared vocabulary: an optional value, ASCII case mapping and counting. */
module Common {

  /** A value that may be absent: Python's `None`, JavaScript's `null`/`undefined`. */
  datatype Option<+T> = None | Some(value: T)

  /** Upper-cases one ASCII letter; every other character is kept. */
  function UpperChar(c: char): (r: char)
    ensures 'a' <= c <= 'z' ==> 'A' <= r <= 'Z' && r as int == c as int - 32
    ensures !('a' <= c <= 'z') ==> r == c
  {
    if 'a' <= c <= 'z' then (c as int - 32) as char else c
  }

  /** Lower-cases one ASCII letter; every other character is kept. */
  function LowerChar(c: char): (r: char)
    ensures 'A' <= c <= 'Z' ==> 'a' <= r <= 'z' && r as int == c as int + 32
    ensures !('A' <= c <= 'Z') ==> r == c
  {
    if 'A' <= c <= 'Z' then (c as int + 32) as char else c
  }

  /** Python's `str.upper` and JavaScript's `toUpperCase`, on the ASCII letters. */
  function Upper(s: string): (r: string)
    ensures |r| == |s|
    ensures forall i :: 0 <= i < |s| ==> r[i] == UpperChar(s[i])
  {
    seq(|s|, i requires 0 <= i < |s| => UpperChar(s[i]))
  }

  /** JavaScript's `toLowerCase`, on the ASCII letters. */
  function Lower(s: string): (r: string)
    ensures |r| == |s|
    ensures forall i :: 0 <= i < |s| ==> r[i] == LowerChar(s[i])
  {
    seq(|s|, i requires 0 <= i < |s| => LowerChar(s[i]))
  }

  /** Number of elements of `s` equal to `x`. */
  function Count<T(==)>(s: seq<T>, x: T): (n: nat)
    ensures n <= |s|
    ensures n == 0 <==> x !in s
  {
    if |s| == 0 then 0 else (if s[0] == x then 1 else 0) + Count(s[1..], x)
  }

  lemma {:induction false} CountAppend<T>(a: seq<T>, b: seq<T>, x: T)
    ensures Count(a + b, x) == Count(a, x) + Count(b, x)
  {
    if |a| == 0 {
      assert a + b == b;
    } else {
      assert (a + b)[1..] == a[1..] + b;
      CountAppend(a[1..], b, x);
    }
  }

  /** An element that occurs once, at a known position, is counted once. */
  lemma CountOnce<T>(a: seq<T>, x: T, b: seq<T>)
    requires x !in a && x !in b
    ensures Count(a + [x] + b, x) == 1
  {
    CountAppend(a + [x], b, x);
    CountAppend(a, [x], x);
  }
}

=== FILE: dashboard.dfy ===
/**
 * The dashboard page's control script: the direction label driven by the
 * joystick, the button press/release machine with its auto-stop, the end of a
 * joystick drag, and the keyboard bindings. What the script sends to the
 * server is the list of emissions of each reaction.
 */
module Dashboard {
  import opened Common

  /** Minimum joystick value that registers movement. */
  const Threshold: int := 20

  /**
   * `currentCommand`, the direction label's text, and `isJoystickActive`.
   * The page starts with `stop` and an inactive joystick.
   */
  datatype Panel = Panel(currentCommand: string, directionText: string, joystickActive: bool)

  /** What the script sends: a `/control` request or a `joystick_move` event. */
  datatype Emission = PostCommand(command: string) | JoystickMove(x: int, y: int)

  datatype Reaction = Reaction(next: Panel, emitted: seq<Emission>)

  function Abs(x: int): nat
  {
    if x < 0 then -x else x
  }

  /**
   * `updateDirectionFromJoystick` on integer values: `STOP` when both axes
   * are below the threshold; otherwise the dominant axis decides, and an axis
   * exactly at the threshold leaves the label as it was.
   */
  function JoystickLabel(text: string, x: int, y: int): (r: string)
    ensures r == text || r in HeadingNames
  {
    if Abs(x) < Threshold && Abs(y) < Threshold then "STOP"
    else if Abs(y) > Abs(x) then
      (if y > Threshold then "FORWARD" else if y < -Threshold then "BACKWARD" else text)
    else
      (if x > Threshold then "RIGHT" else if x < -Threshold then "LEFT" else text)
  }

  /** The five headings the label can show. */
  datatype Heading = Stop | Forward | Backward | Left | Right

  function HeadingName(h: Heading): string
  {
    match h
    case Stop => "STOP"
    case Forward => "FORWARD"
    case Backward => "BACKWARD"
    case Left => "LEFT"
    case Right => "RIGHT"
  }

  /** The texts of the five headings. */
  const HeadingNames: set<string> := {"STOP", "FORWARD", "BACKWARD", "LEFT", "RIGHT"}

  /**
   * The joystick plane by the larger of |x| and |y|: inside the 20-square,
   * stop; exactly on its border, no heading; outside, the heading of the
   * dominant axis (the horizontal one on a tie).
   */
  function Region(x: int, y: int): Option<Heading>
  {
    var m := if Abs(x) >= Abs(y) then Abs(x) else Abs(y);
    if m < Threshold then Some(Stop)
    else if m == Threshold then None
    else if Abs(y) > Abs(x) then Some(if y > 0 then Forward else Backward)
    else Some(if x > 0 then Right else Left)
  }

  /**
   * The label the script shows is the heading of the region, and is left as
   * it was exactly when the point lies on the border of the 20-square.
   */
  lemma JoystickLabelFollowsRegion(text: string, x: int, y: int)
    ensures Region(x, y).Some? ==> JoystickLabel(text, x, y) == HeadingName(Region(x, y).value)
    ensures Region(x, y).None? ==> JoystickLabel(text, x, y) == text
  {
  }

  /** The regions, stated axis by axis. */
  lemma RegionCases(x: int, y: int)
    ensures Region(x, y) == Some(Stop) <==> Abs(x) < 20 && Abs(y) < 20
    ensures Region(x, y) == Some(Forward) <==> Abs(y) > Abs(x) && y > 20
    ensures Region(x, y) == Some(Backward) <==> Abs(y) > Abs(x) && y < -20
    ensures Region(x, y) == Some(Right) <==> Abs(y) <= Abs(x) && x > 20
    ensures Region(x, y) == Some(Left) <==> Abs(y) <= Abs(x) && x < -20
    ensures Region(x, y).None? <==> (Abs(y) > Abs(x) && Abs(y) == 20) || (Abs(y) <= Abs(x) && Abs(x) == 20)
  {
  }

  /** Boundary points of the dominant axis keep whatever the label said. */
  lemma BoundaryKeepsLabel(text: string)
    ensures JoystickLabel(text, 0, 20) == text && JoystickLabel(text, 5, -20) == text
    ensures JoystickLabel(text, 20, 20) == text && JoystickLabel(text, -20, 3) == text
    ensures JoystickLabel(text, 19, -19) == "STOP" && JoystickLabel(text, 10, 21) == "FORWARD"
  {
  }

  /** `handleButtonPress`: send the button's command once, show it, and remember it. */
  function Press(p: Panel, command: string): (r: Reaction)
    ensures r.emitted == [PostCommand(command)]
    ensures r.next.currentCommand == command && r.next.directionText == Upper(command)
    ensures r.next.joystickActive == p.joystickActive
  {
    Reaction(p.(currentCommand := command, directionText := Upper(command)), [PostCommand(command)])
  }

  /**
   * `handleButtonRelease`: releasing the stop button does nothing; releasing
   * another button sends one `stop` unless the current command already is
   * `stop`.
   */
  function Release(p: Panel, buttonCommand: string): (r: Reaction)
    ensures buttonCommand != "stop" && p.currentCommand != "stop" ==>
              r == Reaction(p.(currentCommand := "stop", directionText := "STOP"), [PostCommand("stop")])
    ensures buttonCommand == "stop" || p.currentCommand == "stop" ==> r == Reaction(p, [])
  {
    if buttonCommand != "stop" && p.currentCommand != "stop" then
      Reaction(p.(currentCommand := "stop", directionText := "STOP"), [PostCommand("stop")])
    else Reaction(p, [])
  }

  /** After releasing a movement button, a second release (of any button) sends nothing. */
  lemma ReleaseIsIdempotent(p: Panel, button: string, other: string)
    requires button != "stop"
    ensures Release(p, button).next.currentCommand == "stop"
    ensures Release(Release(p, button).next, other).emitted == []
    ensures Release(Release(p, button).next, other).next == Release(p, button).next
  {
  }

  /** Press and release of a movement button sends the command and then exactly one `stop`. */
  lemma PressReleaseAutoStops(p: Panel, command: string)
    requires command != "stop"
    ensures Press(p, command).emitted + Release(Press(p, command).next, command).emitted
              == [PostCommand(command), PostCommand("stop")]
    ensures Release(Press(p, command).next, command).next.currentCommand == "stop"
  {
  }

  /** `startJoystickControl`. */
  function StartJoystick(p: Panel): (r: Reaction)
    ensures r == Reaction(p.(joystickActive := true), [])
  {
    Reaction(p.(joystickActive := true), [])
  }

  /** `moveJoystick` after normalisation: while active, send the position and update the label. */
  function MoveJoystick(p: Panel, x: int, y: int): (r: Reaction)
    ensures !p.joystickActive ==> r == Reaction(p, [])
    ensures p.joystickActive ==> r == Reaction(p.(directionText := JoystickLabel(p.directionText, x, y)), [JoystickMove(x, y)])
  {
    if !p.joystickActive then Reaction(p, [])
    else Reaction(p.(directionText := JoystickLabel(p.directionText, x, y)), [JoystickMove(x, y)])
  }

  /**
   * `stopJoystickControl`: only while active; send the centre position, show
   * `STOP`, set the current command to `stop` and end the drag. No `/control`
   * request is sent.
   */
  function StopJoystick(p: Panel): (r: Reaction)
    ensures !p.joystickActive ==> r == Reaction(p, [])
    ensures p.joystickActive ==> r.emitted == [JoystickMove(0, 0)] && !r.next.joystickActive
    ensures p.joystickActive ==> r.next.currentCommand == "stop" && r.next.directionText == "STOP"
  {
    if !p.joystickActive then Reaction(p, [])
    else Reaction(Panel("stop", "STOP", false), [JoystickMove(0, 0)])
  }

  /**
   * After a drag ends the current command is already `stop`, so releasing
   * any button (or its key) afterwards sends nothing.
   */
  lemma StopJoystickSilencesRelease(p: Panel, button: string)
    requires p.joystickActive
    ensures Release(StopJoystick(p).next, button) == Reaction(StopJoystick(p).next, [])
  {
  }

  /**
   * The movement key bindings shared by keydown and keyup (on the
   * lower-cased key): w/arrowup, s/arrowdown, a/arrowleft, d/arrowright. The
   * buttons `forward-btn` etc. carry the commands `forward` etc.
   */
  function MovementKey(key: string): Option<string>
  {
    var k := Lower(key);
    if k == "w" || k == "arrowup" then Some("forward")
    else if k == "s" || k == "arrowdown" then Some("backward")
    else if k == "a" || k == "arrowleft" then Some("left")
    else if k == "d" || k == "arrowright" then Some("right")
    else None
  }

  /** The keydown binding: the movement keys, and space for `stop`. */
  function KeyDownCommand(key: string): Option<string>
  {
    if MovementKey(key).Some? then MovementKey(key)
    else if Lower(key) == " " then Some("stop")
    else None
  }

  /** The keyup binding: the movement keys only. */
  function KeyUpCommand(key: string): Option<string>
  {
    MovementKey(key)
  }

  /**
   * Keydown and keyup agree on every key except space, which only presses
   * `stop`; no key releases the stop button.
   */
  lemma KeyBindings(key: string)
    ensures KeyUpCommand(key).Some? ==> KeyDownCommand(key) == KeyUpCommand(key)
    ensures KeyUpCommand(key) != Some("stop")
    ensures KeyDownCommand(key) == Some("stop") <==> Lower(key) == " "
    ensures KeyDownCommand(key).Some? && KeyDownCommand(key) != Some("stop") ==> KeyUpCommand(key) == KeyDownCommand(key)
  {
    assert Lower(" ") == " ";
  }

  /** The bindings for the keys the page reacts to, upper-case letters included. */
  lemma KeyExamples()
    ensures KeyDownCommand("w") == Some("forward") && KeyDownCommand("W") == Some("forward")
    ensures KeyDownCommand("ArrowUp") == Some("forward") && KeyUpCommand("ArrowLeft") == Some("left")
    ensures KeyDownCommand(" ") == Some("stop") && KeyUpCommand(" ").None?
    ensures KeyDownCommand("d") == Some("right") && KeyUpCommand("s") == Some("backward")
  {
    assert Lower("W") == "w";
    assert Lower("ArrowUp") == "arrowup";
    assert Lower("ArrowLeft") == "arrowleft";
    assert Lower(" ") == " ";
  }

  /** keydown: press the bound button. */
  function KeyDown(p: Panel, key: string): (r: Reaction)
    ensures KeyDownCommand(key).None? ==> r == Reaction(p, [])
    ensures KeyDownCommand(key).Some? ==> r == Press(p, KeyDownCommand(key).value)
  {
    match KeyDownCommand(key)
    case Some(c) => Press(p, c)
    case None => Reaction(p, [])
  }

  /** keyup: release the bound button. */
  function KeyUp(p: Panel, key: string): (r: Reaction)
    ensures KeyUpCommand(key).None? ==> r == Reaction(p, [])
    ensures KeyUpCommand(key).Some? ==> r == Release(p, KeyUpCommand(key).value)
  {
    match KeyUpCommand(key)
    case Some(c) => Release(p, c)
    case None => Reaction(p, [])
  }
}

=== FILE: drive.dfy ===
/**
 * The dashboard script and the control server together: every `/control`
 * request and `joystick_move` event the page emits is handled by the server,
 * in the order emitted and without failure.
 */
module Drive {
  import opened Common
  import Server
  import Dashboard

  /** What the page can do. */
  datatype PageEvent =
    | ButtonDown(command: string)
    | ButtonUp(command: string)
    | JoystickDown
    | JoystickDrag(x: int, y: int)
    | JoystickUp
    | KeyDown(key: string)
    | KeyUp(key: string)

  function React(p: Dashboard.Panel, e: PageEvent): Dashboard.Reaction
  {
    match e
    case ButtonDown(c) => Dashboard.Press(p, c)
    case ButtonUp(c) => Dashboard.Release(p, c)
    case JoystickDown => Dashboard.StartJoystick(p)
    case JoystickDrag(x, y) => Dashboard.MoveJoystick(p, x, y)
    case JoystickUp => Dashboard.StopJoystick(p)
    case KeyDown(k) => Dashboard.KeyDown(p, k)
    case KeyUp(k) => Dashboard.KeyUp(p, k)
  }

  /** The server handling what the page emitted, in order. */
  function Deliver(st: Server.ServerState, emitted: seq<Dashboard.Emission>): Server.ServerState
    decreases |emitted|
  {
    if |emitted| == 0 then st
    else
      var next := match emitted[0]
        case PostCommand(c) => Server.Control(st, Some(c)).0
        case JoystickMove(x, y) => Server.HandleJoystick(st, Some(x), Some(y)).0;
      Deliver(next, emitted[1..])
  }

  lemma DeliverOne(st: Server.ServerState, e: Dashboard.Emission)
    ensures e.PostCommand? ==> Deliver(st, [e]) == Server.Control(st, Some(e.command)).0
    ensures e.JoystickMove? ==> Deliver(st, [e]) == st
  {
    assert [e][1..] == [];
  }

  /** Page and server after a sequence of page events. */
  function Play(p: Dashboard.Panel, st: Server.ServerState, events: seq<PageEvent>): (Dashboard.Panel, Server.ServerState)
    decreases |events|
  {
    if |events| == 0 then (p, st)
    else
      var r := React(p, events[0]);
      Play(r.next, Deliver(st, r.emitted), events[1..])
  }

  /** The server's direction is what the page believes the current command to be. */
  ghost predicate InSync(p: Dashboard.Panel, st: Server.ServerState)
  {
    st.direction == Upper(p.currentCommand)
  }

  /** The events that keep the page and the server in step: buttons carry movement commands, and no drag ends. */
  ghost predicate Steady(e: PageEvent)
  {
    match e
    case ButtonDown(c) => c in Server.Movements
    case JoystickUp => false
    case _ => true
  }

  lemma ReactKeepsSync(p: Dashboard.Panel, st: Server.ServerState, e: PageEvent)
    requires InSync(p, st) && Steady(e)
    ensures InSync(React(p, e).next, Deliver(st, React(p, e).emitted))
  {
    Server.MovementDirections();
    match e
    case ButtonDown(c) =>
    case ButtonUp(c) =>
    case JoystickDown =>
    case JoystickDrag(x, y) =>
    case JoystickUp =>
    case KeyDown(k) =>
      assert Dashboard.KeyDownCommand(k).Some? ==> Dashboard.KeyDownCommand(k).value in Server.Movements;
    case KeyUp(k) =>
  }

  /**
   * As long as the joystick drag never ends, and every request reaches the
   * server in order, the server's direction matches the page's current
   * command: each press sends the command and each auto-stop sends `stop`.
   */
  lemma {:induction false} ButtonsKeepServerInSync(p: Dashboard.Panel, st: Server.ServerState, events: seq<PageEvent>)
    requires InSync(p, st)
    requires forall i :: 0 <= i < |events| ==> Steady(events[i])
    ensures InSync(Play(p, st, events).0, Play(p, st, events).1)
    decreases |events|
  {
    if |events| > 0 {
      var r := React(p, events[0]);
      ReactKeepsSync(p, st, events[0]);
      ButtonsKeepServerInSync(r.next, Deliver(st, r.emitted), events[1..]);
    }
  }

  /** The page as loaded: current command `stop`, joystick idle. */
  function Loaded(text: string): Dashboard.Panel
  {
    Dashboard.Panel("stop", text, false)
  }

  /**
   * Ending a joystick drag sets the current command to `stop` without
   * telling `/control`, so a movement key released afterwards sends no
   * `stop`: holding `w`, dragging the joystick and releasing `w` leaves the
   * server at `FORWARD` while the page shows `STOP`.
   */
  lemma JoystickEndLeavesServerMoving(text: string)
    ensures var out := Play(Loaded(text), Server.Initial, [KeyDown("w"), JoystickDown, JoystickUp, KeyUp("w")]);
      && out.0.currentCommand == "stop" && out.0.directionText == "STOP"
      && out.1.direction == "FORWARD"
      && !InSync(out.0, out.1)
  {
    Dashboard.KeyExamples();
    Server.MovementDirections();
    var p1 := Dashboard.Press(Loaded(text), "forward");
    var s1 := Deliver(Server.Initial, p1.emitted);
    DeliverOne(Server.Initial, Dashboard.PostCommand("forward"));
    assert "forward" in Server.Movements;
    assert s1.direction == "FORWARD";
    var p2 := Dashboard.StartJoystick(p1.next);
    var p3 := Dashboard.StopJoystick(p2.next);
    var s3 := Deliver(s1, p3.emitted);
    DeliverOne(s1, Dashboard.JoystickMove(0, 0));
    assert s3 == s1;
    var p4 := Dashboard.Release(p3.next, "forward");
    assert p4.emitted == [];
    assert Upper("stop") == "STOP";
  }

  /** The page as loaded agrees with the server as started. */
  lemma LoadedIsInSync(text: string)
    ensures InSync(Loaded(text), Server.Initial)
  {
    Server.MovementDirections();
  }
}

=== FILE: rtc.dfy ===
/** The part of a WebRTC peer connection both endpoints observe: its connection state. */
module Rtc {

  /** `RTCPeerConnection.connectionState`, as reported to the `connectionstatechange` handlers. */
  datatype PcState = New | Connecting | Connected | Disconnected | Failed | Closed

  /** The state as the string the engines report. */
  function StateName(s: PcState): string
  {
    match s
    case New => "new"
    case Connecting => "connecting"
    case Connected => "connected"
    case Disconnected => "disconnected"
    case Failed => "failed"
    case Closed => "closed"
  }

  /** A local session description produced by the engine: `{type, sdp}`. */
  datatype Description = Description(kind: string, sdp: string)
}

=== FILE: sender.dfy ===
/**
 * The camera sender (`RPiWebRTCSender`) as a state machine that emits an
 * ordered trace of effects. The peer connection and the camera are stubbed:
 * what they produce (the local offer, whether the camera opens, connection
 * state changes, local candidates, whether a remote answer is accepted) arrives
 * as event data.
 */
module Sender {
  import opened Common
  import opened Rtc
  import opened Signalling

  /**
   * The sender's fields. `hasPeer`/`hasTrack` say whether `pc`/`video_track`
   * are set (they are never reset to `None`); `answered` is the current
   * start's `answer_received` event; `subscriptions` counts the answer and
   * candidate listeners registered so far (none is ever removed).
   */
  datatype Sender = Sender(room: RoomId, device: DeviceId, hasPeer: bool, hasTrack: bool,
                           connected: bool, answered: bool, subscriptions: nat)

  /** A freshly constructed sender: it always uses the camera's device id. */
  function Init(room: RoomId): Sender
  {
    Sender(room, RpiDeviceId, false, false, false, false, 0)
  }

  /** What one `start()` gets from the stubbed engine and camera. */
  datatype StartInput = StartInput(cameraOpens: bool, local: Description)

  /** Observable effects, in the order the code performs them. */
  datatype Effect =
    | OpenPeer                                                    // new RTCPeerConnection
    | AttachCamera                                                // CameraVideoTrack opened and added
    | CreateRoom(room: RoomId)                                    // signaling.create_room
    | WriteOffer(room: RoomId, sdp: SdpField, from: DeviceId)     // signaling.send_offer
    | SubscribeAnswer(room: RoomId)                               // signaling.listen_for_answer
    | SubscribeCandidates(room: RoomId, exclude: DeviceId)        // signaling.listen_for_ice_candidates
    | ForwardCandidate(room: RoomId, candidate: CandidateValue, from: DeviceId)  // signaling.add_ice_candidate
    | ApplyAnswer(kind: string, sdp: SdpField)                    // pc.setRemoteDescription
    | ApplyCandidate(fields: IceFields)                           // pc.addIceCandidate
    | ClosePeer                                                   // pc.close
    | StopTrack                                                   // video_track.stop
    | CleanupRoom(room: RoomId)                                   // signaling.cleanup_room

  /** The sender after a step, with the effects of that step. */
  datatype Step = Step(next: Sender, effects: seq<Effect>)

  /** The offer's `sdp` argument as the sender passes it: the `{type, sdp}` object. */
  function OfferPayload(local: Description): SdpField
  {
    SdpObject(local.kind, local.sdp)
  }

  /**
   * `start()`: create the peer connection, open the camera (an exception ends
   * the call there), create the room, write the offer tagged with the own
   * device id, and register the answer listener and the candidate listener
   * that excludes the own device id. A new, unset `answer_received` event
   * belongs to the new start.
   */
  function Start(s: Sender, input: StartInput): (r: Step)
    ensures r.next.room == s.room && r.next.device == s.device
    ensures r.next.hasPeer && r.next.connected == s.connected
    ensures !input.cameraOpens ==> (r.effects == [OpenPeer] && r.next.subscriptions == s.subscriptions
                                    && r.next.hasTrack == s.hasTrack && r.next.answered == s.answered)
    ensures input.cameraOpens ==> (r.next.hasTrack && !r.next.answered
                                   && r.next.subscriptions == s.subscriptions + 1
                                   && r.effects == [OpenPeer, AttachCamera, CreateRoom(s.room),
                                                    WriteOffer(s.room, OfferPayload(input.local), s.device),
                                                    SubscribeAnswer(s.room), SubscribeCandidates(s.room, s.device)])
  {
    if !input.cameraOpens then
      Step(s.(hasPeer := true), [OpenPeer])
    else
      Step(s.(hasPeer := true, hasTrack := true, answered := false, subscriptions := s.subscriptions + 1),
           [OpenPeer, AttachCamera, CreateRoom(s.room), WriteOffer(s.room, OfferPayload(input.local), s.device),
            SubscribeAnswer(s.room), SubscribeCandidates(s.room, s.device)])
  }

  /**
   * `stop()`: close the peer connection if there is one, stop the track if
   * there is one, and clean up the room in every case. No field is reset.
   */
  function Stop(s: Sender): (r: Step)
    ensures r.next == s
    ensures |r.effects| > 0 && r.effects[|r.effects| - 1] == CleanupRoom(s.room)
    ensures ClosePeer in r.effects <==> s.hasPeer
    ensures StopTrack in r.effects <==> s.hasTrack
    ensures Count(r.effects, CleanupRoom(s.room)) == 1
    ensures forall i :: 0 <= i < |r.effects| ==> r.effects[i] in {ClosePeer, StopTrack, CleanupRoom(s.room)}
    ensures s.hasPeer ==> r.effects[0] == ClosePeer
    ensures s.hasTrack ==> r.effects[|r.effects| - 2] == StopTrack
  {
    var close := if s.hasPeer then [ClosePeer] else [];
    var track := if s.hasTrack then [StopTrack] else [];
    CountAppend(close + track, [CleanupRoom(s.room)], CleanupRoom(s.room));
    CountAppend(close, track, CleanupRoom(s.room));
    Step(s, close + track + [CleanupRoom(s.room)])
  }

  /** `reconnect()`: `stop()` and then `start()`; there is no attempt counter. */
  function Reconnect(s: Sender, input: StartInput): (r: Step)
    ensures r.effects == Stop(s).effects + Start(s, input).effects
    ensures r.next == Start(s, input).next
    ensures r.effects[|Stop(s).effects| - 1] == CleanupRoom(s.room)
  {
    var stopped := Stop(s);
    var started := Start(stopped.next, input);
    Step(started.next, stopped.effects + started.effects)
  }

  /** Inputs to the sender. */
  datatype Event =
    | Begin(input: StartInput)                                    // the program calls start()
    | StateChanged(state: PcState, restart: StartInput)           // connectionstatechange; `restart` feeds a reconnect
    | LocalCandidate(candidate: Option<IceFields>)                // icecandidate
    | AnswerNotified(entry: SessionEntry, accepted: bool)         // answer listener; `accepted`: setRemoteDescription succeeded
    | CandidateNotified(value: CandidateValue, constructs: bool)  // candidate listener; `constructs`: aiortc's RTCIceCandidate accepts the fields
    | Shutdown                                                    // the program calls stop()

  /** The subscript `candidate_data['candidate']` etc. of `handle_ice_candidate`; `None` where it raises. */
  function SenderIceFields(v: CandidateValue): (r: Option<IceFields>)
    ensures r.Some? <==> v.CandidateObject?
  {
    match v
    case CandidateObject(f) => Some(f)
    case CandidateText(_) => None
  }

  /**
   * The connection-state handler: `connected` sets the flag; `failed` clears
   * it and reconnects; other states change nothing.
   */
  function OnStateChange(s: Sender, state: PcState, restart: StartInput): (r: Step)
    ensures state == Connected ==> r == Step(s.(connected := true), [])
    ensures state == Failed ==> !r.next.connected && r == Reconnect(s.(connected := false), restart)
    ensures state != Connected && state != Failed ==> r == Step(s, [])
  {
    match state
    case Connected => Step(s.(connected := true), [])
    case Failed => Reconnect(s.(connected := false), restart)
    case _ => Step(s, [])
  }

  /** The local-candidate handler: forward the nested `{candidate, sdpMLineIndex, sdpMid}` object. */
  function OnLocalCandidate(s: Sender, c: Option<IceFields>): (r: Step)
    ensures r.next == s
    ensures c.None? ==> r.effects == []
    ensures c.Some? ==> r.effects == [ForwardCandidate(s.room, CandidateObject(c.value), s.device)]
  {
    match c
    case None => Step(s, [])
    case Some(f) => Step(s, [ForwardCandidate(s.room, CandidateObject(f), s.device)])
  }

  /**
   * `handle_answer`: apply the answer; only when that succeeds is the
   * waiting event set. Without a registered listener nothing is notified.
   */
  function OnAnswer(s: Sender, entry: SessionEntry, accepted: bool): (r: Step)
    ensures s.subscriptions == 0 ==> r == Step(s, [])
    ensures s.subscriptions > 0 ==> r.effects == [ApplyAnswer(entry.kind, entry.sdp)]
    ensures s.subscriptions > 0 ==> (r.next.answered <==> s.answered || accepted)
    ensures r.next.connected == s.connected && r.next.subscriptions == s.subscriptions
    ensures r.next.room == s.room && r.next.device == s.device
    ensures r.next.hasPeer == s.hasPeer && r.next.hasTrack == s.hasTrack
  {
    if s.subscriptions == 0 then Step(s, [])
    else Step(s.(answered := s.answered || accepted), [ApplyAnswer(entry.kind, entry.sdp)])
  }

  /**
   * `handle_ice_candidate`: apply the delivered candidate if it can be read as
   * the nested object and aiortc's `RTCIceCandidate` accepts the keyword
   * arguments `candidate`, `sdpMLineIndex` and `sdpMid` (`constructs`); any
   * exception is caught and nothing is applied.
   */
  function OnRemoteCandidate(s: Sender, v: CandidateValue, constructs: bool): (r: Step)
    ensures r.next == s
    ensures |r.effects| <= 1
    ensures r.effects != [] <==> s.subscriptions > 0 && v.CandidateObject? && constructs
    ensures r.effects != [] ==> r.effects == [ApplyCandidate(v.fields)]
  {
    if s.subscriptions == 0 then Step(s, [])
    else match SenderIceFields(v)
      case Some(f) => if constructs then Step(s, [ApplyCandidate(f)]) else Step(s, [])
      case None => Step(s, [])
  }

  /** One event. */
  function Handle(s: Sender, e: Event): Step
  {
    match e
    case Begin(input) => Start(s, input)
    case StateChanged(state, restart) => OnStateChange(s, state, restart)
    case LocalCandidate(c) => OnLocalCandidate(s, c)
    case AnswerNotified(entry, accepted) => OnAnswer(s, entry, accepted)
    case CandidateNotified(v, constructs) => OnRemoteCandidate(s, v, constructs)
    case Shutdown => Stop(s)
  }

  /** A run: the events in order, with all their effects concatenated. */
  function Run(s: Sender, events: seq<Event>): Step
    decreases |events|
  {
    if |events| == 0 then Step(s, [])
    else
      var first := Handle(s, events[0]);
      var rest := Run(first.next, events[1..]);
      Step(rest.next, first.effects + rest.effects)
  }

  // ----- Trace properties -----

  /** Every effect that carries a device id carries `device`, and every candidate listener excludes it. */
  ghost predicate TaggedWith(effects: seq<Effect>, device: DeviceId)
  {
    forall i :: 0 <= i < |effects| ==>
      (effects[i].WriteOffer? ==> effects[i].from == device)
      && (effects[i].ForwardCandidate? ==> effects[i].from == device)
      && (effects[i].SubscribeCandidates? ==> effects[i].exclude == device)
  }

  /** Every offer write is preceded by the creation of the same room. */
  ghost predicate CreatedBeforeOffered(effects: seq<Effect>)
  {
    forall j :: 0 <= j < |effects| && effects[j].WriteOffer? ==>
      exists i :: 0 <= i < j && effects[i] == CreateRoom(effects[j].room)
  }

  lemma TaggedAppend(a: seq<Effect>, b: seq<Effect>, device: DeviceId)
    requires TaggedWith(a, device) && TaggedWith(b, device)
    ensures TaggedWith(a + b, device)
  {
    assert forall i :: |a| <= i < |a + b| ==> (a + b)[i] == b[i - |a|];
  }

  lemma CreatedAppend(a: seq<Effect>, b: seq<Effect>)
    requires CreatedBeforeOffered(a) && CreatedBeforeOffered(b)
    ensures CreatedBeforeOffered(a + b)
  {
    var ab := a + b;
    forall j | 0 <= j < |ab| && ab[j].WriteOffer?
      ensures exists i :: 0 <= i < j && ab[i] == CreateRoom(ab[j].room)
    {
      if j >= |a| {
        assert b[j - |a|] == ab[j];
        var i :| 0 <= i < j - |a| && b[i] == CreateRoom(b[j - |a|].room);
        assert ab[i + |a|] == b[i];
      } else {
        assert a[j] == ab[j];
        var i :| 0 <= i < j && a[i] == CreateRoom(a[j].room);
        assert ab[i] == a[i];
      }
    }
  }

  lemma StartIsWellOrdered(s: Sender, input: StartInput)
    ensures TaggedWith(Start(s, input).effects, s.device)
    ensures CreatedBeforeOffered(Start(s, input).effects)
  {
    var effs := Start(s, input).effects;
    if input.cameraOpens {
      forall j | 0 <= j < |effs| && effs[j].WriteOffer?
        ensures exists i :: 0 <= i < j && effs[i] == CreateRoom(effs[j].room)
      {
        assert j == 3 && effs[2] == CreateRoom(effs[j].room);
      }
    }
  }

  lemma StopIsWellOrdered(s: Sender)
    ensures TaggedWith(Stop(s).effects, s.device)
    ensures CreatedBeforeOffered(Stop(s).effects)
  {
    var effs := Stop(s).effects;
    assert forall i :: 0 <= i < |effs| ==> effs[i] in {ClosePeer, StopTrack, CleanupRoom(s.room)};
  }

  /** A `failed` event: the stop effects followed by the start effects. */
  lemma FailedIsWellOrdered(s: Sender, restart: StartInput)
    ensures TaggedWith(OnStateChange(s, Failed, restart).effects, s.device)
    ensures CreatedBeforeOffered(OnStateChange(s, Failed, restart).effects)
  {
    var stopped := Stop(s.(connected := false));
    StopIsWellOrdered(s.(connected := false));
    StartIsWellOrdered(stopped.next, restart);
    TaggedAppend(stopped.effects, Start(stopped.next, restart).effects, s.device);
    CreatedAppend(stopped.effects, Start(stopped.next, restart).effects);
  }

  /** Both trace properties hold of the effects of a single event. */
  lemma HandleIsWellOrdered(s: Sender, e: Event)
    ensures Handle(s, e).next.device == s.device && Handle(s, e).next.room == s.room
    ensures TaggedWith(Handle(s, e).effects, s.device)
    ensures CreatedBeforeOffered(Handle(s, e).effects)
  {
    match e
    case Begin(input) =>
      StartIsWellOrdered(s, input);
    case StateChanged(state, restart) =>
      if state == Failed {
        FailedIsWellOrdered(s, restart);
      } else {
        assert Handle(s, e).effects == [];
      }
    case LocalCandidate(c) =>
      assert |Handle(s, e).effects| <= 1;
    case AnswerNotified(entry, accepted) =>
      assert |Handle(s, e).effects| <= 1;
    case CandidateNotified(v, constructs) =>
      assert |Handle(s, e).effects| <= 1;
    case Shutdown =>
      StopIsWellOrdered(s);
  }

  /**
   * Over any run: the sender keeps its device id; every offer and every
   * forwarded candidate is tagged with it; every candidate listener excludes
   * it; and every offer is written after its room was created.
   */
  lemma {:induction false} RunIsWellOrdered(s: Sender, events: seq<Event>)
    ensures Run(s, events).next.device == s.device
    ensures TaggedWith(Run(s, events).effects, s.device)
    ensures CreatedBeforeOffered(Run(s, events).effects)
    decreases |events|
  {
    if |events| > 0 {
      var first := Handle(s, events[0]);
      HandleIsWellOrdered(s, events[0]);
      RunIsWellOrdered(first.next, events[1..]);
      TaggedAppend(first.effects, Run(first.next, events[1..]).effects, s.device);
      CreatedAppend(first.effects, Run(first.next, events[1..]).effects);
    }
  }

  /** The sender built by the program tags everything with `rpi_car_camera`. */
  lemma SenderUsesCameraId(room: RoomId, events: seq<Event>)
    ensures TaggedWith(Run(Init(room), events).effects, RpiDeviceId)
  {
    RunIsWellOrdered(Init(room), events);
  }

  /**
   * A `failed` event clears `connected`, and the room is cleaned up strictly
   * before it is created again.
   */
  lemma ReconnectCleansBeforeCreating(s: Sender, restart: StartInput)
    requires restart.cameraOpens
    ensures !OnStateChange(s, Failed, restart).next.connected
    ensures exists i, j ::
              && 0 <= i < j < |OnStateChange(s, Failed, restart).effects|
              && OnStateChange(s, Failed, restart).effects[i] == CleanupRoom(s.room)
              && OnStateChange(s, Failed, restart).effects[j] == CreateRoom(s.room)
              && (forall k :: 0 <= k < i ==> !OnStateChange(s, Failed, restart).effects[k].CreateRoom?)
  {
    var stopped := Stop(s.(connected := false));
    var started := Start(stopped.next, restart);
    var effs := stopped.effects + started.effects;
    var i := |stopped.effects| - 1;
    assert effs[i] == CleanupRoom(s.room);
    assert effs[|stopped.effects| + 2] == CreateRoom(s.room);
    forall k | 0 <= k < i
      ensures !effs[k].CreateRoom?
    {
      assert effs[k] == stopped.effects[k];
    }
  }

  /** `failed` events, each feeding the following reconnect. */
  function Failures(inputs: seq<StartInput>): (r: seq<Event>)
    ensures |r| == |inputs|
    ensures forall i :: 0 <= i < |inputs| ==> r[i] == StateChanged(Failed, inputs[i])
  {
    seq(|inputs|, i requires 0 <= i < |inputs| => StateChanged(Failed, inputs[i]))
  }

  /** How many of the inputs let the camera open. */
  function Opening(inputs: seq<StartInput>): nat
  {
    if |inputs| == 0 then 0 else (if inputs[0].cameraOpens then 1 else 0) + Opening(inputs[1..])
  }

  lemma StartCounts(s: Sender, input: StartInput)
    ensures Count(Start(s, input).effects, CleanupRoom(s.room)) == 0
    ensures Count(Start(s, input).effects, CreateRoom(s.room)) == if input.cameraOpens then 1 else 0
  {
    var effs := Start(s, input).effects;
    assert CleanupRoom(s.room) !in effs;
    if input.cameraOpens {
      assert effs == effs[..2] + [CreateRoom(s.room)] + effs[3..];
      assert CreateRoom(s.room) !in effs[..2];
      assert CreateRoom(s.room) !in effs[3..] by {
        assert effs[3..] == [effs[3], effs[4], effs[5]];
      }
      CountOnce(effs[..2], CreateRoom(s.room), effs[3..]);
    }
  }

  /** One `failed` event cleans up once and re-creates the room once when the camera opens. */
  lemma ReconnectCounts(s: Sender, input: StartInput)
    ensures Count(OnStateChange(s, Failed, input).effects, CleanupRoom(s.room)) == 1
    ensures Count(OnStateChange(s, Failed, input).effects, CreateRoom(s.room)) == if input.cameraOpens then 1 else 0
    ensures OnStateChange(s, Failed, input).next.room == s.room
  {
    var s' := s.(connected := false);
    var stopped := Stop(s');
    var started := Start(stopped.next, input);
    CountAppend(stopped.effects, started.effects, CleanupRoom(s.room));
    CountAppend(stopped.effects, started.effects, CreateRoom(s.room));
    StartCounts(stopped.next, input);
  }

  /**
   * Reconnection is never bounded: after any number of `failed` events, every
   * one of them has cleaned up the room once and re-created it whenever the
   * camera opened.
   */
  lemma {:induction false} EveryFailureRestarts(s: Sender, inputs: seq<StartInput>)
    ensures Count(Run(s, Failures(inputs)).effects, CleanupRoom(s.room)) == |inputs|
    ensures Count(Run(s, Failures(inputs)).effects, CreateRoom(s.room)) == Opening(inputs)
    ensures Run(s, Failures(inputs)).next.room == s.room
    decreases |inputs|
  {
    if |inputs| > 0 {
      var evs := Failures(inputs);
      var first := Handle(s, evs[0]);
      assert evs[1..] == Failures(inputs[1..]);
      ReconnectCounts(s, inputs[0]);
      EveryFailureRestarts(first.next, inputs[1..]);
      var rest := Run(first.next, evs[1..]);
      CountAppend(first.effects, rest.effects, CleanupRoom(s.room));
      CountAppend(first.effects, rest.effects, CreateRoom(s.room));
    }
  }

  /** The answer event is set exactly when the answer was accepted (or it was already set). */
  lemma AnswerSetsEventOnlyOnSuccess(s: Sender, entry: SessionEntry)
    requires s.subscriptions > 0 && !s.answered
    ensures OnAnswer(s, entry, true).next.answered
    ensures !OnAnswer(s, entry, false).next.answered
  {
  }

  /** `stop()` twice performs the same effects twice and changes nothing: the second call is harmless. */
  lemma StopTwice(s: Sender)
    ensures Stop(Stop(s).next) == Stop(s)
    ensures Stop(s).next == s
  {
  }

  /**
   * Every start registers listeners and nothing removes them: after `n`
   * successful reconnects there are `n` more subscriptions.
   */
  lemma {:induction false} SubscriptionsAccumulate(s: Sender, inputs: seq<StartInput>)
    requires forall i :: 0 <= i < |inputs| ==> inputs[i].cameraOpens
    ensures Run(s, Failures(inputs)).next.subscriptions == s.subscriptions + |inputs|
    decreases |inputs|
  {
    if |inputs| > 0 {
      var evs := Failures(inputs);
      assert evs[1..] == Failures(inputs[1..]);
      SubscriptionsAccumulate(Handle(s, evs[0]).next, inputs[1..]);
    }
  }
}

=== FILE: server.dfy ===
/**
 * The control handlers of the Flask application: `/control`, `/servo_control`
 * and the `joystick_move` socket event, over the process-wide
 * `current_speed`/`current_direction` state. A request field that is missing
 * is `None`; the handlers' defaults are applied here.
 */
module Server {
  import opened Common

  /** `current_speed` and `current_direction`. */
  datatype ServerState = ServerState(speed: int, direction: string)

  /** The state the process starts in. */
  const Initial := ServerState(0, "STOP")

  /** The movement commands `/control` accepts. */
  const Movements: set<string> := {"forward", "backward", "left", "right", "stop"}

  /** The directions those commands produce. */
  const Directions: set<string> := {"FORWARD", "BACKWARD", "LEFT", "RIGHT", "STOP"}

  datatype ControlReply = ControlReply(status: string, command: string, direction: string)
  datatype ServoReply = ServoReply(status: string, servoId: Option<string>, angle: int)
  datatype JoystickReply = JoystickReply(x: int, y: int, status: string)

  /** `data.get('command', '')`. */
  function CommandOf(command: Option<string>): string
  {
    match command
    case Some(c) => c
    case None => ""
  }

  /**
   * `/control`: a movement command becomes the upper-cased direction; any
   * other command (the missing one included) leaves the direction alone. The
   * reply always reports success, the command as received and the direction
   * after the update; the speed is never touched.
   */
  function Control(st: ServerState, command: Option<string>): (r: (ServerState, ControlReply))
    ensures r.0.speed == st.speed
    ensures CommandOf(command) in Movements ==> r.0.direction == Upper(CommandOf(command))
    ensures CommandOf(command) !in Movements ==> r.0 == st
    ensures r.1 == ControlReply("success", CommandOf(command), r.0.direction)
  {
    var c := CommandOf(command);
    var next := if c in Movements then st.(direction := Upper(c)) else st;
    (next, ControlReply("success", c, next.direction))
  }

  /** Each movement command names its direction in capitals. */
  lemma MovementDirections()
    ensures Upper("forward") == "FORWARD" && Upper("backward") == "BACKWARD"
    ensures Upper("left") == "LEFT" && Upper("right") == "RIGHT" && Upper("stop") == "STOP"
  {
  }

  /** The direction is always one of the five, whatever commands arrive. */
  lemma DirectionStaysKnown(st: ServerState, command: Option<string>)
    requires st.direction in Directions
    ensures Control(st, command).0.direction in Directions
  {
    MovementDirections();
  }

  /** Repeating a command changes nothing more. */
  lemma ControlIsIdempotent(st: ServerState, command: Option<string>)
    ensures Control(Control(st, command).0, command) == Control(st, command)
  {
  }

  /** The `/control` exchange promised for `forward`, and for a command outside the set. */
  lemma ControlExamples(st: ServerState)
    ensures Control(st, Some("forward")).1 == ControlReply("success", "forward", "FORWARD")
    ensures Control(st, Some("jump")).1 == ControlReply("success", "jump", st.direction)
    ensures Control(st, None).1 == ControlReply("success", "", st.direction)
  {
    MovementDirections();
    assert "jump" !in Movements;
    assert "" !in Movements;
  }

  /** `max(0, min(180, angle))`. */
  function Clamp(angle: int): (r: int)
    ensures 0 <= r <= 180
    ensures 0 <= angle <= 180 ==> r == angle
    ensures angle < 0 ==> r == 0
    ensures angle > 180 ==> r == 180
  {
    var capped := if angle < 180 then angle else 180;
    if capped > 0 then capped else 0
  }

  /** Clamping twice is clamping once. */
  lemma ClampIsIdempotent(angle: int)
    ensures Clamp(Clamp(angle)) == Clamp(angle)
  {
  }

  /**
   * `/servo_control`: a missing angle is 90; the angle is clamped; the reply
   * echoes the servo id (null when missing) and the clamped angle.
   */
  function ServoControl(servoId: Option<string>, angle: Option<int>): (r: ServoReply)
    ensures r.status == "success" && r.servoId == servoId
    ensures 0 <= r.angle <= 180
    ensures angle.None? ==> r.angle == 90
    ensures angle.Some? ==> r.angle == Clamp(angle.value)
  {
    var a := match angle case Some(v) => v case None => 90;
    ServoReply("success", servoId, Clamp(a))
  }

  /** The servo exchanges promised for 200, -30 and 90 degrees. */
  lemma ServoExamples(id: Option<string>)
    ensures ServoControl(id, Some(200)).angle == 180
    ensures ServoControl(id, Some(-30)).angle == 0
    ensures ServoControl(id, Some(90)).angle == 90
  {
  }

  /**
   * `joystick_move`: the reply echoes `x` and `y` (each 0 when missing) with
   * status `received`; the state is not changed.
   */
  function HandleJoystick(st: ServerState, x: Option<int>, y: Option<int>): (r: (ServerState, JoystickReply))
    ensures r.0 == st
    ensures r.1.status == "received"
    ensures x.Some? ==> r.1.x == x.value
    ensures y.Some? ==> r.1.y == y.value
    ensures x.None? ==> r.1.x == 0
    ensures y.None? ==> r.1.y == 0
  {
    var vx := match x case Some(v) => v case None => 0;
    var vy := match y case Some(v) => v case None => 0;
    (st, JoystickReply(vx, vy, "received"))
  }
}

=== FILE: session.dfy ===
/**
 * The two endpoints against one store: the sender's and the viewer's store
 * effects performed on a reachable store, and what each endpoint makes of the
 * documents the other one writes. The shapes are as each side writes them;
 * nothing here reconciles them.
 */
module Session {
  import opened Common
  import opened Signalling
  import Sender
  import Viewer
  import Rtc

  /** A sender effect performed on a reachable store (engine effects leave it alone). */
  function PerformSender(s: Store, e: Sender.Effect): Store
  {
    match e
    case CreateRoom(id) => CreateRoom(s, id, true).0
    case WriteOffer(id, sdp, from) => SendOffer(s, id, sdp, from, true).0
    case ForwardCandidate(id, c, from) => AddIceCandidate(s, id, c, from, true).0
    case CleanupRoom(id) => CleanupRoom(s, id, None).0
    case _ => s
  }

  function PerformSenderAll(s: Store, effects: seq<Sender.Effect>): Store
    decreases |effects|
  {
    if |effects| == 0 then s else PerformSenderAll(PerformSender(s, effects[0]), effects[1..])
  }

  lemma {:induction false} PerformSenderAppend(s: Store, a: seq<Sender.Effect>, b: seq<Sender.Effect>)
    ensures PerformSenderAll(s, a + b) == PerformSenderAll(PerformSenderAll(s, a), b)
    decreases |a|
  {
    if |a| > 0 {
      assert (a + b)[1..] == a[1..] + b;
      PerformSenderAppend(PerformSender(s, a[0]), a[1..], b);
    } else {
      assert a + b == b;
    }
  }

  /**
   * A viewer effect performed on a reachable store. The browser's answer
   * update writes the same `{sdp, type, from}` record and status as
   * `send_answer`, with the answer's text as `sdp`.
   */
  function PerformViewer(s: Store, e: Viewer.Effect): Store
  {
    match e
    case SendAnswer(id, sdp, from) => SendAnswer(s, id, SdpText(sdp), from, true).0
    case SendCandidate(id, doc) => AddCandidateDoc(s, id, doc, true).0
    case _ => s
  }

  /** Effects that do not touch the store. */
  lemma EngineEffectsKeepStore(s: Store, room: RoomId, device: DeviceId)
    ensures PerformSender(s, Sender.OpenPeer) == s && PerformSender(s, Sender.AttachCamera) == s
    ensures PerformSender(s, Sender.SubscribeAnswer(room)) == s
    ensures PerformSender(s, Sender.SubscribeCandidates(room, device)) == s
  {
  }

  /**
   * A successful start leaves the room `offer_sent`, holding exactly the
   * sender's offer (its `{type, sdp}` object, tagged with the sender's id)
   * and no answer; the candidates already stored are kept.
   */
  lemma StartPublishesOffer(st: Store, snd: Sender.Sender, input: Sender.StartInput)
    requires input.cameraOpens
    ensures var t := PerformSenderAll(st, Sender.Start(snd, input).effects);
      && GetRoomStatus(t, snd.room, true) == Some(OfferSent)
      && GetOffer(t, snd.room, true) == Some(SessionEntry(Sender.OfferPayload(input.local), "offer", snd.device))
      && GetAnswer(t, snd.room, true).None?
      && Candidates(t, snd.room) == Candidates(st, snd.room)
  {
    var effs := Sender.Start(snd, input).effects;
    var room, device := snd.room, snd.device;
    var s2 := CreateRoom(st, room, true).0;
    var s3 := SendOffer(s2, room, Sender.OfferPayload(input.local), device, true).0;
    assert effs == [Sender.OpenPeer, Sender.AttachCamera] + [Sender.CreateRoom(room)]
                   + [Sender.WriteOffer(room, Sender.OfferPayload(input.local), device)]
                   + [Sender.SubscribeAnswer(room), Sender.SubscribeCandidates(room, device)];
    PerformSenderAppend(st, [Sender.OpenPeer, Sender.AttachCamera] + [Sender.CreateRoom(room)]
                              + [Sender.WriteOffer(room, Sender.OfferPayload(input.local), device)],
                        [Sender.SubscribeAnswer(room), Sender.SubscribeCandidates(room, device)]);
    PerformSenderAppend(st, [Sender.OpenPeer, Sender.AttachCamera] + [Sender.CreateRoom(room)],
                        [Sender.WriteOffer(room, Sender.OfferPayload(input.local), device)]);
    PerformSenderAppend(st, [Sender.OpenPeer, Sender.AttachCamera], [Sender.CreateRoom(room)]);
    PerformOne(st, Sender.OpenPeer);
    PerformSenderAppend(st, [Sender.OpenPeer], [Sender.AttachCamera]);
    assert [Sender.OpenPeer] + [Sender.AttachCamera] == [Sender.OpenPeer, Sender.AttachCamera];
    PerformOne(st, Sender.AttachCamera);
    PerformOne(st, Sender.CreateRoom(room));
    PerformOne(s2, Sender.WriteOffer(room, Sender.OfferPayload(input.local), device));
    PerformSenderAppend(s3, [Sender.SubscribeAnswer(room)], [Sender.SubscribeCandidates(room, device)]);
    assert [Sender.SubscribeAnswer(room)] + [Sender.SubscribeCandidates(room, device)]
           == [Sender.SubscribeAnswer(room), Sender.SubscribeCandidates(room, device)];
    PerformOne(s3, Sender.SubscribeAnswer(room));
    PerformOne(s3, Sender.SubscribeCandidates(room, device));
  }

  lemma PerformOne(s: Store, e: Sender.Effect)
    ensures PerformSenderAll(s, [e]) == PerformSender(s, e)
  {
    assert [e][1..] == [];
  }

  /**
   * After a `failed` event on a reachable store, the new session starts
   * clean: the old candidates are gone, and the room holds only the new offer.
   */
  lemma ReconnectStartsClean(st: Store, snd: Sender.Sender, input: Sender.StartInput)
    requires input.cameraOpens
    ensures var t := PerformSenderAll(st, Sender.OnStateChange(snd, Rtc.Failed, input).effects);
      && Candidates(t, snd.room) == []
      && GetRoomStatus(t, snd.room, true) == Some(OfferSent)
      && GetAnswer(t, snd.room, true).None?
      && GetOffer(t, snd.room, true) == Some(SessionEntry(Sender.OfferPayload(input.local), "offer", snd.device))
  {
    var s' := snd.(connected := false);
    var stopped := Sender.Stop(s');
    var started := Sender.Start(stopped.next, input);
    PerformSenderAppend(st, stopped.effects, started.effects);
    var mid := PerformSenderAll(st, stopped.effects);
    StopClearsRoom(st, s');
    StartPublishesOffer(mid, stopped.next, input);
  }

  /** The effects of `stop()` remove the room and its candidates. */
  lemma StopClearsRoom(st: Store, snd: Sender.Sender)
    ensures snd.room !in PerformSenderAll(st, Sender.Stop(snd).effects).rooms
    ensures Candidates(PerformSenderAll(st, Sender.Stop(snd).effects), snd.room) == []
  {
    var effs := Sender.Stop(snd).effects;
    var n := |effs|;
    assert effs == effs[..n - 1] + [Sender.CleanupRoom(snd.room)];
    PerformSenderAppend(st, effs[..n - 1], [Sender.CleanupRoom(snd.room)]);
    assert forall i :: 0 <= i < n - 1 ==> effs[i] in {Sender.ClosePeer, Sender.StopTrack};
    NoStoreEffects(st, effs[..n - 1]);
  }

  lemma {:induction false} NoStoreEffects(st: Store, effs: seq<Sender.Effect>)
    requires forall i :: 0 <= i < |effs| ==> effs[i] in {Sender.ClosePeer, Sender.StopTrack}
    ensures PerformSenderAll(st, effs) == st
    decreases |effs|
  {
    if |effs| > 0 {
      assert effs[0] in {Sender.ClosePeer, Sender.StopTrack};
      NoStoreEffects(st, effs[1..]);
    }
  }

  /**
   * The browser hands the sender's offer to its engine with the `sdp` text
   * `[object Object]`: the offer's `sdp` field is the `{type, sdp}` object,
   * which JavaScript converts to that string.
   */
  lemma ViewerReadsSenderOfferAsObject(st: Store, snd: Sender.Sender, input: Sender.StartInput,
                                       v: Viewer.Viewer, outcome: Viewer.OfferOutcome)
    requires input.cameraOpens && v.peer == Some(Viewer.Peer(false))
    ensures var t := PerformSenderAll(st, Sender.Start(snd, input).effects);
      snd.room in t.rooms && t.rooms[snd.room].offer.Some?
      && Viewer.OnOffer(v, Some(t.rooms[snd.room]), outcome).effects[0] == Viewer.ApplyOffer("offer", "[object Object]")
  {
    StartPublishesOffer(st, snd, input);
  }

  /** Documents with no top-level index fields, as the Python writer stores them. */
  ghost predicate AllNested(docs: seq<CandidateDoc>)
  {
    forall i :: 0 <= i < |docs| ==> docs[i].sdpMLineIndex.None? && docs[i].sdpMid.None?
  }

  lemma {:induction false} NestedDocsYieldNoInits(docs: seq<CandidateDoc>)
    requires AllNested(docs)
    ensures Viewer.Inits(docs) == []
    decreases |docs|
  {
    if |docs| > 0 {
      NestedDocsYieldNoInits(docs[1..]);
    }
  }

  lemma {:induction false} AddedOfNested(changes: seq<Change>)
    requires forall i :: 0 <= i < |changes| ==> changes[i].doc.sdpMLineIndex.None? && changes[i].doc.sdpMid.None?
    ensures AllNested(AddedDocs(changes))
    decreases |changes|
  {
    if |changes| > 0 {
      AddedOfNested(changes[1..]);
    }
  }

  lemma {:induction false} OthersOfNested(docs: seq<CandidateDoc>, device: DeviceId)
    requires AllNested(docs)
    ensures AllNested(OthersOf(docs, device))
    decreases |docs|
  {
    if |docs| > 0 {
      OthersOfNested(docs[1..], device);
    }
  }

  /**
   * The browser applies none of the candidates the sender writes: they carry
   * no top-level `sdpMLineIndex`/`sdpMid`, so its `RTCIceCandidate`
   * constructor throws for each one.
   */
  lemma ViewerCannotApplySenderCandidates(v: Viewer.Viewer, changes: seq<Change>)
    requires forall i :: 0 <= i < |changes| ==> changes[i].doc == NestedDoc(changes[i].doc.candidate, changes[i].doc.from)
    ensures Viewer.OnCandidates(v, changes).effects == []
  {
    AddedOfNested(changes);
    OthersOfNested(AddedDocs(changes), v.device);
    NestedDocsYieldNoInits(OthersOf(AddedDocs(changes), v.device));
  }

  /**
   * The sender applies none of the candidates the browser writes: their
   * `candidate` field is the bare line, which `handle_ice_candidate` cannot
   * subscript.
   */
  lemma SenderCannotApplyViewerCandidates(snd: Sender.Sender, v: Viewer.Viewer, f: IceFields, constructs: bool)
    ensures Sender.OnRemoteCandidate(snd, Viewer.FlatDoc(f, v.device).candidate, constructs).effects == []
  {
  }

  /**
   * Each side can read its own shape: the browser builds a candidate from the
   * flat record, and the sender reads the nested object's fields, so whether
   * it applies them rests only on aiortc's constructor accepting them.
   */
  lemma EachSideReadsItsOwnShape(snd: Sender.Sender, f: IceFields, device: DeviceId, constructs: bool)
    requires snd.subscriptions > 0
    requires f.sdpMLineIndex.Some?
    ensures Sender.OnRemoteCandidate(snd, CandidateObject(f), constructs).effects
              == (if constructs then [Sender.ApplyCandidate(f)] else [])
    ensures Viewer.BrowserIceInit(Viewer.FlatDoc(f, device)) == Some(Viewer.IceInit(f.candidate, f.sdpMLineIndex, f.sdpMid))
  {
  }

  /**
   * The answer path works end to end: the browser's answer, written into an
   * existing room, is what the sender's answer listener delivers, and the
   * sender applies it with type `answer` and the browser's SDP text.
   */
  lemma ViewerAnswerReachesSender(st: Store, room: RoomId, sdp: string, snd: Sender.Sender, accepted: bool)
    requires room in st.rooms && snd.subscriptions > 0
    ensures var t := PerformViewer(st, Viewer.SendAnswer(room, sdp, DashboardDeviceId));
      && AnswerNotification(t, room) == Some(SessionEntry(SdpText(sdp), "answer", DashboardDeviceId))
      && Sender.OnAnswer(snd, AnswerNotification(t, room).value, accepted).effects == [Sender.ApplyAnswer("answer", SdpText(sdp))]
  {
  }

  /** A device's own candidates never come back to it through its listener. */
  lemma {:induction false} OwnCandidatesNeverReturn(changes: seq<Change>, device: DeviceId)
    requires forall i :: 0 <= i < |changes| ==> changes[i].doc.from == device
    ensures IceDeliveries(changes, device) == []
    decreases |changes|
  {
    if |changes| > 0 {
      OwnCandidatesNeverReturn(changes[1..], device);
    }
  }

  /** The changes whose record was written by some other device than `device`. */
  function DropOwn(changes: seq<Change>, device: DeviceId): (r: seq<Change>)
    ensures |r| <= |changes|
    ensures forall i :: 0 <= i < |r| ==> r[i].doc.from != device && r[i] in changes
  {
    if |changes| == 0 then []
    else if changes[0].doc.from == device then DropOwn(changes[1..], device)
    else [changes[0]] + DropOwn(changes[1..], device)
  }

  /**
   * A device's own records never reach it, whatever else the batch holds:
   * removing them from any batch changes nothing the listener hands on, and
   * every value handed on is the candidate of a record some other device added.
   */
  lemma {:induction false} DeliveriesIgnoreOwnRecords(changes: seq<Change>, device: DeviceId)
    ensures IceDeliveries(DropOwn(changes, device), device) == IceDeliveries(changes, device)
    ensures forall v :: v in IceDeliveries(changes, device) ==>
              exists c :: c in changes && c.kind == Added && c.doc.from != device && c.doc.candidate == v
    decreases |changes|
  {
    if |changes| > 0 {
      var c := changes[0];
      var rest := changes[1..];
      DeliveriesIgnoreOwnRecords(rest, device);
      if c.doc.from != device {
        var d := [c] + DropOwn(rest, device);
        assert d[0] == c;
        assert d[1..] == DropOwn(rest, device);
      }
      forall v | v in IceDeliveries(changes, device)
        ensures exists c' :: c' in changes && c'.kind == Added && c'.doc.from != device && c'.doc.candidate == v
      {
        if c.kind == Added && c.doc.from != device && v == c.doc.candidate {
          assert c in changes;
        } else {
          assert v in IceDeliveries(rest, device);
          var c' :| c' in rest && c'.kind == Added && c'.doc.from != device && c'.doc.candidate == v;
          assert c' in changes;
        }
      }
    }
  }
}

=== FILE: signalling.dfy ===
/**
 * The signalling store: the `webrtc_signaling` collection of room documents,
 * each with an `ice_candidates` sub-collection, and the operations of
 * `FirebaseSignaling` on it. The collection is a pair of maps; a store that
 * cannot be reached is a parameter (`up == false`), and every operation turns
 * that into a `false`/`None`/`[]` result without changing anything.
 */
module Signalling {
  import opened Common

  type RoomId = string
  type DeviceId = string

  /** Device identifiers of the camera sender and the dashboard viewer. */
  const RpiDeviceId: DeviceId := "rpi_car_camera"
  const DashboardDeviceId: DeviceId := "dashboard_viewer"

  /** Room statuses the code writes, and the fallback when the field is missing. */
  const Waiting := "waiting"
  const OfferSent := "offer_sent"
  const AnswerSent := "answer_sent"
  const Unknown := "unknown"

  /**
   * The `sdp` field of an offer or answer entry, exactly as written: a string
   * (what the browser writes) or a `{type, sdp}` object (what the camera
   * sender passes as the "sdp" of its offer).
   */
  datatype SdpField = SdpText(text: string) | SdpObject(kind: string, text: string)

  /** An offer or answer entry: `{sdp, type, from}` (the server timestamp is not modelled). */
  datatype SessionEntry = SessionEntry(sdp: SdpField, kind: string, from: DeviceId)

  /** A room document: `status`, `offer`, `answer`. A missing `status` is `None`. */
  datatype Room = Room(status: Option<string>, offer: Option<SessionEntry>, answer: Option<SessionEntry>)

  /** `{candidate, sdpMLineIndex, sdpMid}`; the engines may leave the last two null. */
  datatype IceFields = IceFields(candidate: string, sdpMLineIndex: Option<int>, sdpMid: Option<string>)

  /**
   * The `candidate` field of a candidate document: an object holding all
   * three ICE fields (the Python writer) or the bare candidate line (the browser).
   */
  datatype CandidateValue = CandidateObject(fields: IceFields) | CandidateText(text: string)

  /**
   * A document of the `ice_candidates` sub-collection. The Python writer stores
   * `{candidate: {...}, from}` (no top-level index fields); the browser stores
   * the flat `{candidate, sdpMLineIndex, sdpMid, from}`.
   */
  datatype CandidateDoc = CandidateDoc(candidate: CandidateValue, sdpMLineIndex: Option<int>, sdpMid: Option<string>, from: DeviceId)

  /**
   * The collection: room documents by id, and each room's candidate
   * sub-collection in insertion order. A sub-collection exists independently
   * of its parent document, as in the document store.
   */
  datatype Store = Store(rooms: map<RoomId, Room>, ice: map<RoomId, seq<CandidateDoc>>)

  /** The candidate documents stored under a room (none when the sub-collection is absent). */
  function Candidates(s: Store, id: RoomId): seq<CandidateDoc>
  {
    if id in s.ice then s.ice[id] else []
  }

  /** Everything outside room `id` is the same in `s` and `t`. */
  ghost predicate SameElsewhere(s: Store, t: Store, id: RoomId)
  {
    && t.rooms - {id} == s.rooms - {id}
    && (forall k :: k != id ==> Candidates(t, k) == Candidates(s, k))
  }

  /** The fresh document `create_room` writes. */
  const FreshRoom := Room(Some(Waiting), None, None)

  /**
   * `create_room`: overwrites the room document with status `waiting` and null
   * offer and answer; the candidate sub-collection is left as it was.
   */
  function CreateRoom(s: Store, id: RoomId, up: bool): (r: (Store, bool))
    ensures r.1 == up
    ensures !up ==> r.0 == s
    ensures up ==> id in r.0.rooms && r.0.rooms[id].status == Some(Waiting)
    ensures up ==> r.0.rooms[id].offer.None? && r.0.rooms[id].answer.None?
    ensures r.0.ice == s.ice
    ensures SameElsewhere(s, r.0, id)
  {
    if !up then (s, false)
    else (s.(rooms := s.rooms[id := FreshRoom]), true)
  }

  /**
   * `send_offer`: updates the existing room document's `offer` to
   * `{sdp, type: 'offer', from}` and its status to `offer_sent`. Updating a
   * room that does not exist fails, like an unreachable store.
   */
  function SendOffer(s: Store, id: RoomId, sdp: SdpField, device: DeviceId, up: bool): (r: (Store, bool))
    ensures r.1 <==> up && id in s.rooms
    ensures !r.1 ==> r.0 == s
    ensures r.1 ==> (id in r.0.rooms
                     && r.0.rooms[id].offer == Some(SessionEntry(sdp, "offer", device))
                     && r.0.rooms[id].status == Some(OfferSent)
                     && r.0.rooms[id].answer == s.rooms[id].answer)
    ensures r.0.ice == s.ice
    ensures SameElsewhere(s, r.0, id)
  {
    if !up || id !in s.rooms then (s, false)
    else
      var room := s.rooms[id].(offer := Some(SessionEntry(sdp, "offer", device)), status := Some(OfferSent));
      (s.(rooms := s.rooms[id := room]), true)
  }

  /**
   * `send_answer` (and the browser's `sendAnswer`, which performs the same
   * update): `answer := {sdp, type: 'answer', from}`, status `answer_sent`.
   */
  function SendAnswer(s: Store, id: RoomId, sdp: SdpField, device: DeviceId, up: bool): (r: (Store, bool))
    ensures r.1 <==> up && id in s.rooms
    ensures !r.1 ==> r.0 == s
    ensures r.1 ==> (id in r.0.rooms
                     && r.0.rooms[id].answer == Some(SessionEntry(sdp, "answer", device))
                     && r.0.rooms[id].status == Some(AnswerSent)
                     && r.0.rooms[id].offer == s.rooms[id].offer)
    ensures r.0.ice == s.ice
    ensures SameElsewhere(s, r.0, id)
  {
    if !up || id !in s.rooms then (s, false)
    else
      var room := s.rooms[id].(answer := Some(SessionEntry(sdp, "answer", device)), status := Some(AnswerSent));
      (s.(rooms := s.rooms[id := room]), true)
  }

  /** Appends one document to a room's candidate sub-collection (`collection(...).add`). */
  function AddCandidateDoc(s: Store, id: RoomId, doc: CandidateDoc, up: bool): (r: (Store, bool))
    ensures r.1 == up
    ensures !up ==> r.0 == s
    ensures up ==> Candidates(r.0, id) == Candidates(s, id) + [doc]
    ensures r.0.rooms == s.rooms
    ensures SameElsewhere(s, r.0, id)
  {
    if !up then (s, false)
    else (s.(ice := s.ice[id := Candidates(s, id) + [doc]]), true)
  }

  /** The document the Python `add_ice_candidate` writes: `{candidate, from}`. */
  function NestedDoc(candidate: CandidateValue, device: DeviceId): CandidateDoc
  {
    CandidateDoc(candidate, None, None, device)
  }

  /**
   * `add_ice_candidate`: appends exactly one `{candidate, from}` record; the
   * room document need not exist.
   */
  function AddIceCandidate(s: Store, id: RoomId, candidate: CandidateValue, device: DeviceId, up: bool): (r: (Store, bool))
    ensures r.1 == up
    ensures !up ==> r.0 == s
    ensures up ==> |Candidates(r.0, id)| == |Candidates(s, id)| + 1
    ensures up ==> Candidates(r.0, id)[..|Candidates(s, id)|] == Candidates(s, id)
    ensures up ==> Candidates(r.0, id)[|Candidates(s, id)|] == CandidateDoc(candidate, None, None, device)
    ensures r.0.rooms == s.rooms
    ensures SameElsewhere(s, r.0, id)
  {
    AddCandidateDoc(s, id, NestedDoc(candidate, device), up)
  }

  /** `get_offer`: the stored offer, or `None` for an absent room or an unreachable store. */
  function GetOffer(s: Store, id: RoomId, up: bool): (r: Option<SessionEntry>)
    ensures r.Some? <==> up && id in s.rooms && s.rooms[id].offer.Some?
    ensures r.Some? ==> r == s.rooms[id].offer
  {
    if up && id in s.rooms then s.rooms[id].offer else None
  }

  /** `get_answer`: the stored answer, or `None` for an absent room or an unreachable store. */
  function GetAnswer(s: Store, id: RoomId, up: bool): (r: Option<SessionEntry>)
    ensures r.Some? <==> up && id in s.rooms && s.rooms[id].answer.Some?
    ensures r.Some? ==> r == s.rooms[id].answer
  {
    if up && id in s.rooms then s.rooms[id].answer else None
  }

  /**
   * `get_room_status`: the status field, `'unknown'` when the document has
   * none, `None` when the room is absent or the store unreachable.
   */
  function GetRoomStatus(s: Store, id: RoomId, up: bool): (r: Option<string>)
    ensures r.None? <==> !up || id !in s.rooms
    ensures r.Some? && s.rooms[id].status.Some? ==> r == s.rooms[id].status
    ensures r.Some? && s.rooms[id].status.None? ==> r == Some(Unknown)
  {
    if !up || id !in s.rooms then None
    else if s.rooms[id].status.Some? then s.rooms[id].status
    else Some(Unknown)
  }

  /** The documents of `docs` not written by `device`, in order: the `from != device` query. */
  function OthersOf(docs: seq<CandidateDoc>, device: DeviceId): (r: seq<CandidateDoc>)
    ensures |r| <= |docs|
  {
    if |docs| == 0 then []
    else (if docs[0].from != device then [docs[0]] else []) + OthersOf(docs[1..], device)
  }

  /** The `candidate` field of each document. */
  function Values(docs: seq<CandidateDoc>): (r: seq<CandidateValue>)
    ensures |r| == |docs|
    ensures forall i :: 0 <= i < |docs| ==> r[i] == docs[i].candidate
  {
    seq(|docs|, i requires 0 <= i < |docs| => docs[i].candidate)
  }

  /** The query keeps a document exactly when it comes from another device. */
  lemma {:induction false} OthersOfMembership(docs: seq<CandidateDoc>, device: DeviceId, d: CandidateDoc)
    ensures d in OthersOf(docs, device) <==> d in docs && d.from != device
  {
    if |docs| > 0 {
      OthersOfMembership(docs[1..], device, d);
      assert docs == [docs[0]] + docs[1..];
    }
  }

  /** No document in the query's answer was written by the asking device. */
  lemma {:induction false} OthersOfExcludesSelf(docs: seq<CandidateDoc>, device: DeviceId)
    ensures forall i :: 0 <= i < |OthersOf(docs, device)| ==> OthersOf(docs, device)[i].from != device
  {
    var r := OthersOf(docs, device);
    forall i | 0 <= i < |r|
      ensures r[i].from != device
    {
      assert r[i] in r;
      OthersOfMembership(docs, device, r[i]);
    }
  }

  /** The query distributes over concatenation (a newly added document is judged on its own). */
  lemma {:induction false} OthersOfAppend(a: seq<CandidateDoc>, b: seq<CandidateDoc>, device: DeviceId)
    ensures OthersOf(a + b, device) == OthersOf(a, device) + OthersOf(b, device)
  {
    if |a| == 0 {
      assert a + b == b;
    } else {
      assert (a + b)[1..] == a[1..] + b;
      OthersOfAppend(a[1..], b, device);
    }
  }

  /**
   * `get_ice_candidates`: the `candidate` field of every stored record whose
   * `from` differs from `device`, in stored order; `[]` when the store is
   * unreachable.
   */
  method GetIceCandidates(s: Store, id: RoomId, device: DeviceId, up: bool) returns (r: seq<CandidateValue>)
    ensures !up ==> r == []
    ensures up ==> r == Values(OthersOf(Candidates(s, id), device))
  {
    if !up {
      return [];
    }
    var docs := Candidates(s, id);
    r := [];
    var i := 0;
    while i < |docs|
      invariant 0 <= i <= |docs|
      invariant r == Values(OthersOf(docs[..i], device))
    {
      assert docs[..i + 1] == docs[..i] + [docs[i]];
      OthersOfAppend(docs[..i], [docs[i]], device);
      if docs[i].from != device {
        r := r + [docs[i].candidate];
      }
      i := i + 1;
    }
    assert docs[..|docs|] == docs;
  }

  /** Kinds of change a snapshot listener reports. */
  datatype ChangeKind = Added | Modified | Removed

  /** One change of a candidate snapshot. */
  datatype Change = Change(kind: ChangeKind, doc: CandidateDoc)

  /** The documents of the `Added` changes, in order. */
  function AddedDocs(changes: seq<Change>): (r: seq<CandidateDoc>)
    ensures |r| <= |changes|
  {
    if |changes| == 0 then []
    else (if changes[0].kind == Added then [changes[0].doc] else []) + AddedDocs(changes[1..])
  }

  /**
   * The filter of `listen_for_ice_candidates`: for each change, in order, the
   * candidate is handed on only when the change is an addition and its `from`
   * is not the listening device.
   */
  function IceDeliveries(changes: seq<Change>, device: DeviceId): (r: seq<CandidateValue>)
  {
    if |changes| == 0 then []
    else
      var c := changes[0];
      (if c.kind == Added && c.doc.from != device then [c.doc.candidate] else []) + IceDeliveries(changes[1..], device)
  }

  lemma ValuesAppend(a: seq<CandidateDoc>, b: seq<CandidateDoc>)
    ensures Values(a + b) == Values(a) + Values(b)
  {
  }

  /**
   * The listener hands on exactly what the one-shot query would return for the
   * documents the changes add.
   */
  lemma {:induction false} IceDeliveriesAreQueryOfAdded(changes: seq<Change>, device: DeviceId)
    ensures IceDeliveries(changes, device) == Values(OthersOf(AddedDocs(changes), device))
  {
    if |changes| > 0 {
      var c := changes[0];
      var head := if c.kind == Added then [c.doc] else [];
      IceDeliveriesAreQueryOfAdded(changes[1..], device);
      OthersOfAppend(head, AddedDocs(changes[1..]), device);
      ValuesAppend(OthersOf(head, device), OthersOf(AddedDocs(changes[1..]), device));
      assert OthersOf(head, device) == (if c.kind == Added && c.doc.from != device then [c.doc] else []) by {
        if c.kind == Added {
          assert head[1..] == [];
        }
      }
    }
  }

  /**
   * The snapshot handler of `listen_for_answer`: the answer is handed on when
   * the document exists and its `answer` is set.
   */
  function AnswerNotification(s: Store, id: RoomId): (r: Option<SessionEntry>)
    ensures r.Some? <==> id in s.rooms && s.rooms[id].answer.Some?
    ensures r.Some? ==> r == s.rooms[id].answer
  {
    if id in s.rooms then s.rooms[id].answer else None
  }

  /**
   * `cleanup_room`: deletes the candidate documents one at a time, then the
   * room document. `fault == Some(k)` means the store fails after `k`
   * successful deletions; the deletions already made stay made, and the call
   * returns `false`.
   */
  function CleanupRoom(s: Store, id: RoomId, fault: Option<nat>): (r: (Store, bool))
    ensures r.1 <==> fault.None? || fault.value > |Candidates(s, id)|
    ensures r.1 ==> id !in r.0.rooms && Candidates(r.0, id) == []
    ensures !r.1 ==> (r.0.rooms == s.rooms
                      && Candidates(r.0, id) == Candidates(s, id)[fault.value..])
    ensures SameElsewhere(s, r.0, id)
  {
    var cs := Candidates(s, id);
    if fault.Some? && fault.value <= |cs| then
      (s.(ice := s.ice[id := cs[fault.value..]]), false)
    else
      (Store(s.rooms - {id}, s.ice - {id}), true)
  }

  // ----- Properties relating the operations -----

  /** A newly created room reads back as `waiting`, with no offer and no answer. */
  lemma CreateThenRead(s: Store, id: RoomId)
    ensures GetRoomStatus(CreateRoom(s, id, true).0, id, true) == Some(Waiting)
    ensures GetOffer(CreateRoom(s, id, true).0, id, true).None?
    ensures GetAnswer(CreateRoom(s, id, true).0, id, true).None?
    ensures Candidates(CreateRoom(s, id, true).0, id) == Candidates(s, id)
  {
  }

  /** An offer written into an existing room reads back exactly. */
  lemma OfferRoundTrip(s: Store, id: RoomId, sdp: SdpField, device: DeviceId)
    requires id in s.rooms
    ensures GetOffer(SendOffer(s, id, sdp, device, true).0, id, true) == Some(SessionEntry(sdp, "offer", device))
    ensures GetRoomStatus(SendOffer(s, id, sdp, device, true).0, id, true) == Some(OfferSent)
  {
  }

  /**
   * An answer written into an existing room reads back exactly, and the next
   * answer snapshot hands that same entry to the listener.
   */
  lemma AnswerRoundTrip(s: Store, id: RoomId, sdp: SdpField, device: DeviceId)
    requires id in s.rooms
    ensures GetAnswer(SendAnswer(s, id, sdp, device, true).0, id, true) == Some(SessionEntry(sdp, "answer", device))
    ensures AnswerNotification(SendAnswer(s, id, sdp, device, true).0, id) == Some(SessionEntry(sdp, "answer", device))
    ensures GetRoomStatus(SendAnswer(s, id, sdp, device, true).0, id, true) == Some(AnswerSent)
  {
  }

  /** Writing to a room that was never created (or was cleaned up) changes nothing and reports failure. */
  lemma WriteToAbsentRoomFails(s: Store, id: RoomId, sdp: SdpField, device: DeviceId, up: bool)
    requires id !in s.rooms
    ensures SendOffer(s, id, sdp, device, up) == (s, false)
    ensures SendAnswer(s, id, sdp, device, up) == (s, false)
  {
  }

  /**
   * A candidate added by `from` is never returned to `from`; every other
   * device gets it after what it would have got before.
   */
  lemma {:induction false} CandidateRelay(s: Store, id: RoomId, c: CandidateValue, from: DeviceId, reader: DeviceId)
    ensures reader == from ==>
      OthersOf(Candidates(AddIceCandidate(s, id, c, from, true).0, id), reader) == OthersOf(Candidates(s, id), reader)
    ensures reader != from ==>
      OthersOf(Candidates(AddIceCandidate(s, id, c, from, true).0, id), reader)
        == OthersOf(Candidates(s, id), reader) + [NestedDoc(c, from)]
  {
    OthersOfAppend(Candidates(s, id), [NestedDoc(c, from)], reader);
    assert [NestedDoc(c, from)][1..] == [];
  }

  /** After a clean-up that completes, the room is gone: no status, no offer, no candidates. */
  lemma CleanupForgetsRoom(s: Store, id: RoomId, device: DeviceId)
    ensures CleanupRoom(s, id, None).1
    ensures GetRoomStatus(CleanupRoom(s, id, None).0, id, true).None?
    ensures GetOffer(CleanupRoom(s, id, None).0, id, true).None?
    ensures GetAnswer(CleanupRoom(s, id, None).0, id, true).None?
    ensures OthersOf(Candidates(CleanupRoom(s, id, None).0, id), device) == []
  {
  }

  /** Every operation leaves the store as it was when the store cannot be reached. */
  lemma UnreachableChangesNothing(s: Store, id: RoomId, sdp: SdpField, c: CandidateValue, device: DeviceId)
    ensures CreateRoom(s, id, false) == (s, false)
    ensures SendOffer(s, id, sdp, device, false) == (s, false)
    ensures SendAnswer(s, id, sdp, device, false) == (s, false)
    ensures AddIceCandidate(s, id, c, device, false) == (s, false)
    ensures GetOffer(s, id, false).None? && GetAnswer(s, id, false).None?
    ensures GetRoomStatus(s, id, false).None?
    ensures CleanupRoom(s, id, Some(0)).0.rooms == s.rooms
  {
  }
}

=== FILE: viewer.dfy ===
/**
 * The dashboard's `WebRTCClient` as a state machine over
 * (pc, remote stream, connected, reconnect attempts, pending reconnects,
 * status label). Peer-connection events, snapshot deliveries and timer firings
 * are inputs; calls into the engine and the store are effects.
 */
module Viewer {
  import opened Common
  import opened Rtc
  import opened Signalling

  /** `maxReconnectAttempts`. */
  const MaxReconnectAttempts: nat := 3

  /**
   * A peer connection; `remoteSet` is whether `currentRemoteDescription` is
   * set. For the answering side that happens only once its own answer is set
   * locally: an accepted offer alone stays pending.
   */
  datatype Peer = Peer(remoteSet: bool)

  /**
   * The client's fields. `pending` counts reconnects scheduled by
   * `setTimeout` and not yet run; `statusText` is the status element's text
   * (`None` until the client first writes it); `subscriptions` counts the
   * offer and candidate listeners registered so far (none is ever removed).
   */
  datatype Viewer = Viewer(room: RoomId, device: DeviceId, peer: Option<Peer>, remoteStream: bool,
                           connected: bool, attempts: nat, pending: nat, statusText: Option<string>,
                           subscriptions: nat)

  /** The client the page builds. */
  function Init(room: RoomId): Viewer
  {
    Viewer(room, DashboardDeviceId, None, false, false, 0, 0, None, 0)
  }

  /** The arguments of `new RTCIceCandidate({candidate, sdpMLineIndex, sdpMid})`. */
  datatype IceInit = IceInit(candidate: string, sdpMLineIndex: Option<int>, sdpMid: Option<string>)

  /** Observable effects, in the order the code performs them. */
  datatype Effect =
    | OpenPeer                                            // new RTCPeerConnection
    | SubscribeOffer(room: RoomId)                        // listenForOffers
    | SubscribeCandidates(room: RoomId, exclude: DeviceId) // listenForIceCandidates: where('from', '!=', deviceId)
    | ApplyOffer(kind: string, sdp: string)               // pc.setRemoteDescription
    | SendAnswer(room: RoomId, sdp: string, from: DeviceId) // sendAnswer: update of answer and status
    | SendCandidate(room: RoomId, doc: CandidateDoc)      // sendIceCandidate: add of a flat record
    | ApplyCandidate(init: IceInit)                       // pc.addIceCandidate
    | ScheduleReconnect                                   // setTimeout(reconnect, 5000)
    | ClosePeer                                           // pc.close
    | StopTracks                                          // remoteStream tracks stopped

  datatype Step = Step(next: Viewer, effects: seq<Effect>)

  /** What the engine does with an offer handed to `handleOffer`. */
  datatype OfferOutcome =
    | Rejected                        // setRemoteDescription throws
    | AppliedWithoutAnswer            // the offer is accepted as pending, then creating or setting the answer throws
    | Answered(answerSdp: string)     // the answer is created, set locally and sent

  /** Inputs to the client. */
  datatype Event =
    | Start                                               // start(videoElement)
    | StateChanged(state: PcState)                        // onconnectionstatechange
    | TrackArrived(hasStream: bool)                       // ontrack, with or without `streams[0]`
    | LocalCandidate(candidate: Option<IceFields>)        // onicecandidate
    | OfferSnapshot(doc: Option<Room>, outcome: OfferOutcome)  // the room listener; `None`: no such document
    | CandidateSnapshot(changes: seq<Change>)             // the candidate listener
    | ReconnectTimer(videoPresent: bool)                  // a scheduled reconnect runs
    | Stop                                                // stop()

  /** The keys of the status map, in the order written. */
  const KnownStatuses: seq<string> := ["new", "connecting", "connected", "streaming", "disconnected", "failed", "closed"]

  /**
   * `statusMap[status] || status`, for status names that are not properties
   * every JavaScript object inherits (`constructor`, `toString`, ...).
   */
  function StatusLabel(status: string): (r: string)
    ensures r != status <==> status in KnownStatuses
    ensures status == "failed" ==> r == "\U{274C} Connection Failed"
    ensures status == "connected" ==> r == "\U{1F7E2} Connected"
  {
    if status == "new" then "\U{1F535} Initializing..."
    else if status == "connecting" then "\U{1F7E1} Connecting..."
    else if status == "connected" then "\U{1F7E2} Connected"
    else if status == "streaming" then "\U{1F4F9} Streaming"
    else if status == "disconnected" then "\U{1F534} Disconnected"
    else if status == "failed" then "\U{274C} Connection Failed"
    else if status == "closed" then "\U{26AB} Closed"
    else status
  }

  /**
   * The seven known statuses get seven different texts, none of which is
   * itself a status name, so the label always tells the statuses apart.
   */
  lemma StatusLabelMap(a: string, b: string)
    requires a in KnownStatuses && b in KnownStatuses && a != b
    ensures StatusLabel(a) != StatusLabel(b)
    ensures StatusLabel(a) !in KnownStatuses
  {
  }

  /** Every connection state the engine reports is one of the known statuses. */
  lemma StatesAreKnown(state: PcState)
    ensures StateName(state) in KnownStatuses
  {
  }

  /** JavaScript's conversion of the offer's `sdp` field to the DOMString the engine receives. */
  function SdpAsDomString(f: SdpField): (r: string)
    ensures f.SdpText? ==> r == f.text
    ensures f.SdpObject? ==> r == "[object Object]"
  {
    match f
    case SdpText(t) => t
    case SdpObject(_, _) => "[object Object]"
  }

  /**
   * `new RTCIceCandidate({candidate: data.candidate, sdpMLineIndex:
   * data.sdpMLineIndex, sdpMid: data.sdpMid})` on a stored document: the
   * constructor throws when both index fields are missing, and an object in
   * `candidate` becomes the text `[object Object]`.
   */
  function BrowserIceInit(doc: CandidateDoc): (r: Option<IceInit>)
    ensures r.Some? <==> doc.sdpMLineIndex.Some? || doc.sdpMid.Some?
    ensures r.Some? && doc.candidate.CandidateText? ==> r.value.candidate == doc.candidate.text
    ensures r.Some? && doc.candidate.CandidateObject? ==> r.value.candidate == "[object Object]"
  {
    if doc.sdpMLineIndex.None? && doc.sdpMid.None? then None
    else
      var text := match doc.candidate
        case CandidateText(t) => t
        case CandidateObject(_) => "[object Object]";
      Some(IceInit(text, doc.sdpMLineIndex, doc.sdpMid))
  }

  /** `start()`: a new peer connection without a remote description, and two more listeners. */
  function StartStep(v: Viewer): (r: Step)
    ensures r.next.peer == Some(Peer(false))
    ensures r.next.attempts == v.attempts && r.next.pending == v.pending && r.next.connected == v.connected
    ensures r.next.subscriptions == v.subscriptions + 1
    ensures r.effects == [OpenPeer, SubscribeOffer(v.room), SubscribeCandidates(v.room, v.device)]
    ensures r.next.room == v.room && r.next.device == v.device
  {
    Step(v.(peer := Some(Peer(false)), subscriptions := v.subscriptions + 1),
         [OpenPeer, SubscribeOffer(v.room), SubscribeCandidates(v.room, v.device)])
  }

  /** `stop()`: close and drop the peer connection, stop and drop the remote stream, clear `connected`. */
  function StopStep(v: Viewer): (r: Step)
    ensures r.next.peer.None? && !r.next.remoteStream && !r.next.connected
    ensures r.next.attempts == v.attempts && r.next.pending == v.pending
    ensures r.next.statusText == v.statusText && r.next.subscriptions == v.subscriptions
    ensures ClosePeer in r.effects <==> v.peer.Some?
    ensures StopTracks in r.effects <==> v.remoteStream
    ensures forall i :: 0 <= i < |r.effects| ==> r.effects[i] in {ClosePeer, StopTracks}
  {
    Step(v.(peer := None, remoteStream := false, connected := false),
         (if v.peer.Some? then [ClosePeer] else []) + (if v.remoteStream then [StopTracks] else []))
  }

  /**
   * `handleConnectionFailure`: below the limit, count the attempt and
   * schedule a reconnect; at the limit, only show the failed label.
   */
  function HandleConnectionFailure(v: Viewer): (r: Step)
    ensures v.attempts < MaxReconnectAttempts ==>
              r == Step(v.(attempts := v.attempts + 1, pending := v.pending + 1), [ScheduleReconnect])
    ensures v.attempts >= MaxReconnectAttempts ==>
              r == Step(v.(statusText := Some(StatusLabel("failed"))), [])
  {
    if v.attempts < MaxReconnectAttempts then
      Step(v.(attempts := v.attempts + 1, pending := v.pending + 1), [ScheduleReconnect])
    else
      Step(v.(statusText := Some(StatusLabel("failed"))), [])
  }

  /**
   * `onconnectionstatechange`: show the state's label; `connected` sets the
   * flag and resets the attempt counter; `failed` clears the flag and handles
   * the failure; `disconnected` only clears the flag. With no peer connection
   * the handler's first read of `this.pc` throws and nothing changes.
   */
  function OnStateChange(v: Viewer, state: PcState): (r: Step)
    ensures v.peer.None? ==> r == Step(v, [])
    ensures v.peer.Some? && state == Connected ==> r.next.connected && r.next.attempts == 0 && r.effects == []
    ensures v.peer.Some? && state == Failed ==> !r.next.connected && r.next.attempts == (if v.attempts < MaxReconnectAttempts then v.attempts + 1 else v.attempts)
    ensures v.peer.Some? && state == Failed ==> (r.effects == [ScheduleReconnect] <==> v.attempts < MaxReconnectAttempts)
    ensures v.peer.Some? && state == Failed ==>
              r == HandleConnectionFailure(v.(statusText := Some(StatusLabel("failed")), connected := false))
    ensures v.peer.Some? && state == Disconnected ==> !r.next.connected && r.effects == [] && r.next.attempts == v.attempts
    ensures v.peer.Some? && state != Connected ==> r.next.attempts >= v.attempts
    ensures v.peer.Some? && state !in {Connected, Failed, Disconnected} ==> r.next.connected == v.connected && r.effects == []
    ensures v.peer.Some? ==> r.next.statusText == Some(StatusLabel(StateName(state)))
    ensures r.next.peer == v.peer && r.next.remoteStream == v.remoteStream
  {
    if v.peer.None? then Step(v, [])
    else
      var shown := v.(statusText := Some(StatusLabel(StateName(state))));
      match state
      case Connected => Step(shown.(connected := true, attempts := 0), [])
      case Failed => HandleConnectionFailure(shown.(connected := false))
      case Disconnected => Step(shown.(connected := false), [])
      case _ => Step(shown, [])
  }

  /** `reconnect()`: `stop()`, then `start()` only if the video element exists. The counter is untouched. */
  function Reconnect(v: Viewer, videoPresent: bool): (r: Step)
    ensures r.next.attempts == v.attempts && r.next.pending == v.pending
    ensures videoPresent ==> r.next.peer == Some(Peer(false))
    ensures !videoPresent ==> r.next.peer.None?
    ensures !r.next.connected && !r.next.remoteStream
    ensures |StopStep(v).effects| <= |r.effects| && r.effects[..|StopStep(v).effects|] == StopStep(v).effects
    ensures v.peer.Some? ==> r.effects[0] == ClosePeer
    ensures videoPresent ==> r.effects[|StopStep(v).effects|..] == StartStep(v).effects
    ensures !videoPresent ==> r.effects == StopStep(v).effects
    ensures ScheduleReconnect !in r.effects
  {
    var stopped := StopStep(v);
    if videoPresent then
      var started := StartStep(stopped.next);
      Step(started.next, stopped.effects + started.effects)
    else stopped
  }

  /** A scheduled reconnect runs (a firing with nothing scheduled changes nothing). */
  function OnTimer(v: Viewer, videoPresent: bool): (r: Step)
    ensures r.next.attempts == v.attempts
    ensures ScheduleReconnect !in r.effects
    ensures v.pending > 0 ==> r.next.pending == v.pending - 1
    ensures v.pending == 0 ==> r == Step(v, [])
    ensures v.pending > 0 ==> r == Reconnect(v.(pending := v.pending - 1), videoPresent)
  {
    if v.pending == 0 then Step(v, [])
    else Reconnect(v.(pending := v.pending - 1), videoPresent)
  }

  /**
   * The room listener: an existing document with an offer is handed to
   * `handleOffer` only if the peer connection has no remote description yet.
   * `handleOffer` applies the offer (its `sdp` converted to a string) and, if
   * the engine produces an answer, sends it.
   */
  function OnOffer(v: Viewer, doc: Option<Room>, outcome: OfferOutcome): (r: Step)
    ensures r.effects != [] <==> doc.Some? && doc.value.offer.Some? && v.peer == Some(Peer(false))
    ensures r.effects != [] ==> r.effects[0] == ApplyOffer(doc.value.offer.value.kind, SdpAsDomString(doc.value.offer.value.sdp))
    ensures r.effects != [] && outcome.Answered? ==> r.effects == [r.effects[0], SendAnswer(v.room, outcome.answerSdp, v.device)]
    ensures r.effects != [] && !outcome.Answered? ==> |r.effects| == 1
    ensures r.effects != [] ==> (r.next.peer == Some(Peer(true)) <==> outcome.Answered?)
    ensures !outcome.Answered? ==> r.next == v
    ensures r.effects == [] ==> r.next == v
    ensures r.next.attempts == v.attempts && r.next.connected == v.connected
    ensures r.next.room == v.room && r.next.device == v.device && r.next.remoteStream == v.remoteStream
    ensures r.next.pending == v.pending && r.next.statusText == v.statusText && r.next.subscriptions == v.subscriptions
  {
    if doc.None? || doc.value.offer.None? || v.peer.None? || v.peer.value.remoteSet then Step(v, [])
    else
      var offer := doc.value.offer.value;
      var apply := ApplyOffer(offer.kind, SdpAsDomString(offer.sdp));
      match outcome
      case Rejected => Step(v, [apply])
      case AppliedWithoutAnswer => Step(v, [apply])
      case Answered(answerSdp) => Step(v.(peer := Some(Peer(true))), [apply, SendAnswer(v.room, answerSdp, v.device)])
  }

  /** The candidates the browser builds from documents, skipping those whose constructor throws. */
  function Inits(docs: seq<CandidateDoc>): (r: seq<IceInit>)
    ensures |r| <= |docs|
  {
    if |docs| == 0 then []
    else
      (match BrowserIceInit(docs[0]) case Some(i) => [i] case None => []) + Inits(docs[1..])
  }

  /** Wraps each candidate in the effect that applies it. */
  function Applications(inits: seq<IceInit>): (r: seq<Effect>)
    ensures |r| == |inits|
    ensures forall i :: 0 <= i < |inits| ==> r[i] == ApplyCandidate(inits[i])
  {
    seq(|inits|, i requires 0 <= i < |inits| => ApplyCandidate(inits[i]))
  }

  /**
   * The candidate listener: each `added` change of a document from another
   * device is applied to the current peer connection (with no peer
   * connection, `addIceCandidate` throws and is caught).
   */
  function OnCandidates(v: Viewer, changes: seq<Change>): (r: Step)
    ensures r.next == v
    ensures v.peer.None? ==> r.effects == []
    ensures v.peer.Some? ==> r.effects == Applications(Inits(OthersOf(AddedDocs(changes), v.device)))
  {
    if v.peer.None? then Step(v, [])
    else Step(v, Applications(Inits(OthersOf(AddedDocs(changes), v.device))))
  }

  /** `sendIceCandidate`: the flat record, tagged with the client's device id. */
  function FlatDoc(f: IceFields, device: DeviceId): CandidateDoc
  {
    CandidateDoc(CandidateText(f.candidate), f.sdpMLineIndex, f.sdpMid, device)
  }

  function OnLocalCandidate(v: Viewer, c: Option<IceFields>): (r: Step)
    ensures r.next == v
    ensures c.None? ==> r.effects == []
    ensures c.Some? ==> r.effects == [SendCandidate(v.room, FlatDoc(c.value, v.device))]
  {
    match c
    case None => Step(v, [])
    case Some(f) => Step(v, [SendCandidate(v.room, FlatDoc(f, v.device))])
  }

  /** `ontrack`: a track with a stream is kept and the label says so. */
  function OnTrack(v: Viewer, hasStream: bool): (r: Step)
    ensures r.effects == []
    ensures hasStream ==> r.next == v.(remoteStream := true, statusText := Some(StatusLabel("streaming")))
    ensures !hasStream ==> r.next == v
  {
    if hasStream then Step(v.(remoteStream := true, statusText := Some(StatusLabel("streaming"))), [])
    else Step(v, [])
  }

  /** One event. */
  function Handle(v: Viewer, e: Event): Step
  {
    match e
    case Start => StartStep(v)
    case StateChanged(state) => OnStateChange(v, state)
    case TrackArrived(hasStream) => OnTrack(v, hasStream)
    case LocalCandidate(c) => OnLocalCandidate(v, c)
    case OfferSnapshot(doc, outcome) => OnOffer(v, doc, outcome)
    case CandidateSnapshot(changes) => OnCandidates(v, changes)
    case ReconnectTimer(videoPresent) => OnTimer(v, videoPresent)
    case Stop => StopStep(v)
  }

  /** A run: the events in order, with all their effects concatenated. */
  function Run(v: Viewer, events: seq<Event>): Step
    decreases |events|
  {
    if |events| == 0 then Step(v, [])
    else
      var first := Handle(v, events[0]);
      var rest := Run(first.next, events[1..]);
      Step(rest.next, first.effects + rest.effects)
  }

  // ----- Properties -----

  /** The attempt counter never exceeds the limit. */
  ghost predicate Valid(v: Viewer)
  {
    v.attempts <= MaxReconnectAttempts
  }

  /** Every event keeps the counter within the limit. */
  lemma HandleKeepsValid(v: Viewer, e: Event)
    requires Valid(v)
    ensures Valid(Handle(v, e).next)
  {
  }

  lemma {:induction false} RunKeepsValid(v: Viewer, events: seq<Event>)
    requires Valid(v)
    ensures Valid(Run(v, events).next)
    decreases |events|
  {
    if |events| > 0 {
      HandleKeepsValid(v, events[0]);
      RunKeepsValid(Handle(v, events[0]).next, events[1..]);
    }
  }

  /** The client the page builds starts valid, so every run from it stays within the limit. */
  lemma PageClientStaysValid(room: RoomId, events: seq<Event>)
    ensures Init(room).device == DashboardDeviceId && Init(room).attempts == 0
    ensures Valid(Run(Init(room), events).next)
  {
    RunKeepsValid(Init(room), events);
  }

  /** The event is a `connected` state change. */
  predicate IsConnected(e: Event)
  {
    e.StateChanged? && e.state == Connected
  }

  /**
   * Between two `connected` events, every scheduled reconnect is paid for by
   * one attempt: start, stop, timers and failures never lower the counter.
   */
  lemma HandleCountsSchedules(v: Viewer, e: Event)
    requires !IsConnected(e)
    ensures Handle(v, e).next.attempts == v.attempts + Count(Handle(v, e).effects, ScheduleReconnect)
  {
    match e
    case StateChanged(state) =>
      if v.peer.Some? && state == Failed {
        var shown := v.(statusText := Some(StatusLabel(StateName(state))), connected := false);
        assert Handle(v, e) == HandleConnectionFailure(shown);
        if v.attempts < MaxReconnectAttempts {
          assert Count([ScheduleReconnect], ScheduleReconnect) == 1;
        }
      }
    case Start =>
      assert ScheduleReconnect !in Handle(v, e).effects;
    case Stop =>
      assert ScheduleReconnect !in Handle(v, e).effects;
    case OfferSnapshot(doc, outcome) =>
      assert ScheduleReconnect !in Handle(v, e).effects;
    case CandidateSnapshot(changes) =>
      assert ScheduleReconnect !in Handle(v, e).effects;
    case LocalCandidate(c) =>
      assert ScheduleReconnect !in Handle(v, e).effects;
    case TrackArrived(h) =>
    case ReconnectTimer(p) =>
  }

  /**
   * With no `connected` event in between, the client schedules at most
   * `maxReconnectAttempts - attempts` reconnects (so at most 3 from a fresh
   * or freshly connected client).
   */
  lemma {:induction false} ReconnectsAreBounded(v: Viewer, events: seq<Event>)
    requires Valid(v)
    requires forall i :: 0 <= i < |events| ==> !IsConnected(events[i])
    ensures Run(v, events).next.attempts == v.attempts + Count(Run(v, events).effects, ScheduleReconnect)
    ensures Count(Run(v, events).effects, ScheduleReconnect) <= MaxReconnectAttempts - v.attempts
    decreases |events|
  {
    if |events| > 0 {
      var first := Handle(v, events[0]);
      HandleCountsSchedules(v, events[0]);
      HandleKeepsValid(v, events[0]);
      ReconnectsAreBounded(first.next, events[1..]);
      CountAppend(first.effects, Run(first.next, events[1..]).effects, ScheduleReconnect);
      RunKeepsValid(v, events);
    }
  }

  /** A `connected` event restores the full budget of reconnects. */
  lemma ConnectedResets(v: Viewer)
    requires v.peer.Some?
    ensures OnStateChange(v, Connected).next.attempts == 0
    ensures OnStateChange(v, Connected).next.connected
  {
  }

  /** `stop()` is idempotent: a second call changes nothing and does nothing. */
  lemma StopIsIdempotent(v: Viewer)
    ensures StopStep(StopStep(v).next) == Step(StopStep(v).next, [])
  {
  }

  /**
   * Once the client has answered an offer, no later snapshot applies an
   * offer again until a new peer connection is started.
   */
  lemma OfferAppliedAtMostOnce(v: Viewer, doc: Option<Room>, outcome: OfferOutcome, later: Option<Room>, outcome2: OfferOutcome)
    requires OnOffer(v, doc, outcome).effects != [] && outcome.Answered?
    ensures OnOffer(OnOffer(v, doc, outcome).next, later, outcome2).effects == []
  {
  }

  /**
   * Until the client has answered, the guard stays open: the next snapshot of
   * the same room applies the same offer again.
   */
  lemma OfferReappliedUntilAnswered(v: Viewer, doc: Option<Room>, outcome: OfferOutcome, outcome2: OfferOutcome)
    requires OnOffer(v, doc, outcome).effects != [] && !outcome.Answered?
    ensures OnOffer(v, doc, outcome).next == v
    ensures OnOffer(OnOffer(v, doc, outcome).next, doc, outcome2).effects != []
    ensures OnOffer(OnOffer(v, doc, outcome).next, doc, outcome2).effects[0] == OnOffer(v, doc, outcome).effects[0]
  {
  }

  /** The listener never applies a candidate written by this client itself. */
  lemma {:induction false} CandidatesFromOthersOnly(v: Viewer, changes: seq<Change>, init: IceInit)
    requires ApplyCandidate(init) in OnCandidates(v, changes).effects
    ensures exists d :: d in AddedDocs(changes) && d.from != v.device && BrowserIceInit(d) == Some(init)
  {
    var docs := OthersOf(AddedDocs(changes), v.device);
    InitsComeFrom(docs, init);
    var d :| d in docs && BrowserIceInit(d) == Some(init);
    OthersOfMembership(AddedDocs(changes), v.device, d);
  }

  lemma {:induction false} InitsComeFrom(docs: seq<CandidateDoc>, init: IceInit)
    requires ApplyCandidate(init) in Applications(Inits(docs))
    ensures exists d :: d in docs && BrowserIceInit(d) == Some(init)
    decreases |docs|
  {
    var inits := Inits(docs);
    var k :| 0 <= k < |inits| && Applications(inits)[k] == ApplyCandidate(init);
    assert init in inits;
    var head := match BrowserIceInit(docs[0]) case Some(i) => [i] case None => [];
    assert inits == head + Inits(docs[1..]);
    if init in head {
      assert docs[0] in docs;
    } else {
      assert init in Inits(docs[1..]);
      var j :| 0 <= j < |Inits(docs[1..])| && Inits(docs[1..])[j] == init;
      assert Applications(Inits(docs[1..]))[j] == ApplyCandidate(init);
      InitsComeFrom(docs[1..], init);
      var d :| d in docs[1..] && BrowserIceInit(d) == Some(init);
      assert d in docs;
    }
  }
}
